=== FILE: README.md ===
# Go-elastic places service, modelled in Dafny

Go-elastic loads a CSV of places into an Elasticsearch index called "places". It then serves that index over HTTP:

- `/` is an HTML page of 10 places.
- `/api/places` is the same page as JSON.
- `/api/recommend` returns the 3 places nearest to a point.

This project models the service's own logic as pure functions:

- **Indexer** (`indexer.dfy`):
  - the delete-then-create decision of `SetupIndex`;
  - the bulk indexer settings;
  - the row-to-document projection of `AddPlaceToIndex`, with its success and failure callbacks.
- **Store** (`store.dfy`):
  - the two query bodies of `GetPlaces` and `GetClosetPlaces`;
  - the projection of search hits to places.
- **Server** (`server.dfy`):
  - the page validation and 64-bit paging arithmetic of `RootHandler` and `ApiPlacesHandler`;
  - the fixed limit of `ApiRecommendHandler`.
- **Models** (`models.dfy`): the `Place`, `GeoPoint` and `EsSearch` types and their JSON form.

The supporting modules are:

- `Wrappers`: `Option` and `Result`.
- `Numbers`: Go's `int` and `uint64` as bounded integers with explicit wrap-around, and `float64` as its IEEE field layout.
- `Strconv`: `strconv.Atoi` and decimal formatting.
- `Json`: a JSON tree, with the decoding rules of `encoding/json`.

Two kinds of input are left uninterpreted:

- **The engine.** Its replies to delete, create and search, and the bulk indexer's answer to `Add`, are inputs.
- **Float text.** `strconv.ParseFloat` and the float formatting of `encoding/json` are a parameter pair `FloatSyntax(parse, format)`. Round-trip results assume `RoundTrips(fs)`: formatting a finite float and parsing the text gives the same float back.

Go writes map keys in sorted order. So the query bodies are modelled with sorted keys, and `Store.DecodeQuery` is a reference reading of a body: it states what the engine is asked for. Decoding follows `encoding/json`:

- a missing member or `null` gives the zero value;
- a member of the wrong kind is an error;
- unknown members are ignored;
- of a member written twice, only the last occurrence is read (Go's handling of duplicates differs; see "## Left out").

## Model

| member | source | states |
|---|---|---|
| Models.EncodeGeoPoint | src/internal/models/place.go:10-13 | a location marshals exactly when both coordinates are finite, as an object with members "lon" and "lat" |
| Models.EncodePlace | src/internal/models/place.go:3-8 | a place marshals exactly when its location is finite, as an object with exactly the members name, address, phone, location: no document id |
| Models.EncodePlaces | src/internal/models/place.go:3-8 | a list of places marshals exactly when every location is finite, element by element and in order |
| Models.GeoPointRoundTrip | src/internal/models/place.go:10-13 | a marshalled location decodes back to the same location, with lon and lat not swapped |
| Models.PlaceRoundTrip | src/internal/models/place.go:3-8 | a marshalled place decodes back to the same place |
| Models.DecodeHits | src/internal/models/place.go:20-22 | a hit list decodes exactly when every hit does, with the same length and each hit decoded in place |
| Models.EncodeSearchResponse | src/internal/models/place.go:15-24 | the engine's side of a search response can be written exactly when every source location is finite |
| Models.SourcesOf | src/internal/db/store.go:55-58 | the projection keeps length and order: place i is the `_source` of hit i |
| Models.DecodeSearchResponse | src/internal/db/store.go:49-53 | `Decode(&EsSearch)` on a parsed body: `null` is the zero response, any other non-object is an error. Its full reading is stated by `Models.DecodedFromSourcesOnly`, `Models.SearchResponseRoundTrip` and `Models.MissingHitsDecodesEmpty` |
| Models.NullSourceIsZeroPlace | src/internal/models/place.go:20-22 | any hit object, whatever other members (`_index`, `_id`, `_score`) it has, decodes to the zero place when its `_source` is missing or `null` |
| Models.SearchResponseRoundTrip | src/internal/models/place.go:15-24 | any result set the engine writes is decoded back unchanged: total and every hit's source |
| Models.HitsRoundTrip | src/internal/models/place.go:20-22 | the hit array the engine writes decodes back to the same hits |
| Models.HitRoundTrip | src/internal/models/place.go:20-22 | one hit written with a finite place as its `_source` decodes back to that hit |
| Models.DecodeHitsOfParts | src/internal/models/place.go:20-22 | an array whose every element decodes to the hit at its index decodes to exactly those hits |
| Models.DecodedFromSourcesOnly | src/internal/models/place.go:15-23 | a decoded response's places come only from `hits.hits[i]._source`, one per element in order, and its total only from `hits.total.value` |
| Models.MissingHitsDecodesEmpty | src/internal/models/place.go:15-24 | a body with no `hits` member, an engine error body for example, decodes without error to zero hits and total 0 |
| Json.LookupFindsLast | src/internal/db/store.go:51 | a member is found exactly when its key occurs, and the value found is the one at the last occurrence |
| Json.FieldRoundTrips | src/internal/models/place.go:3-13 | a string, an integer and a finite float each decode back to themselves |
| Strconv.Atoi | src/cmd/startServer/main.go:14 | an accepted string is non-empty and holds only digits after an optional leading sign. `Strconv.AtoiAcceptsDecimal` and `Strconv.AtoiRejects` state exactly which strings are accepted |
| Strconv.AtoiAcceptsDecimal | src/cmd/startServer/main.go:14 | a run of digits, bare or after "+" or "-", is accepted exactly when its signed value fits in 64 bits, and then reads as that value |
| Strconv.AtoiItoa | src/cmd/startServer/main.go:14 | `strconv.Atoi` reads back every 64-bit integer written in decimal |
| Strconv.AtoiRejects | src/cmd/startServer/main.go:14 | `strconv.Atoi` rejects the empty string, a non-digit after an optional sign, and a lone sign |
| Indexer.SetupIndex | src/internal/db/indexer.go:17-41 | the delete of the index is always sent first, and at most two requests are sent. The create is sent exactly when the delete got neither a transport error nor an error status. An error is returned exactly for a transport error on either call, and it is that call's error. A create error status is logged, and nothing else is |
| Indexer.SetupSuccessDoesNotMeanCreated | src/internal/db/indexer.go:23-24 | a nil result can mean no create was sent, or that the create was refused |
| Indexer.SetupIndexChecked | src/internal/db/indexer.go:17-41 | the corrected setup: a nil result means both requests were sent, the delete succeeded and the create had no transport error. It agrees with the original when the delete did not fail |
| Indexer.NewBulkIndexerConfig | src/internal/db/indexer.go:43-53 | the bulk indexer writes to the given index with 8 workers, flushing at 5 MiB or every 30 seconds |
| Indexer.AddPlaceToIndex | src/internal/db/indexer.go:55-108 | each failure and what it does: a lon that does not parse is the error and column 5 is not looked at; a lat that does not parse is the error. In both cases nothing is offered. An item is offered exactly when both parse and are finite. It is an "index" action with document id column 0 and the marshalled place as body. The result is nil exactly when the item is offered and accepted. When both coordinates parse but marshalling fails, the error is the marshal error. When the bulk indexer refuses the offered item, the error is its refusal |
| Indexer.OfferedBodyIsRowPlace | src/internal/db/indexer.go:65-87 | the offered body has exactly the four place members, with no id among them, and it decodes to columns 1-3 with the parsed lon and lat |
| Indexer.NoRangeCheck | src/internal/db/indexer.go:56-73 | any finite pair of coordinates is offered, however far out of range |
| Indexer.OnSuccess | src/internal/db/indexer.go:89-91 | the success callback adds one to the counter, wrapping at 2^64 |
| Indexer.OnFailure | src/internal/db/indexer.go:93-99 | the failure callback never changes the counter |
| Indexer.Tally | src/internal/db/indexer.go:89-99 | the callbacks run one after another; with no successes the counter is unchanged. `Indexer.TallyCountsSuccesses` states the count in general |
| Indexer.TallyCountsSuccesses | src/internal/db/indexer.go:89-99 | after any sequence of callbacks, the counter has grown by the number of successes, modulo 2^64 |
| Indexer.CounterBounded | src/internal/db/indexer.go:89-99 | from zero, with fewer than 2^64 reports, the counter equals the number of successes and never exceeds the number of items |
| Store.EncodeQuery | src/internal/db/store.go:26-37 | a query body can be encoded exactly when its coordinates are finite |
| Store.MatchAllRoundTrip | src/internal/db/store.go:26-32 | the paging body is read back as match_all with the same from and size |
| Store.DecodeMatchAllOfParts | src/internal/db/store.go:26-32 | any body whose size, from and `query` members read as a paging query decodes to that query, whatever else it holds |
| Store.IntMemberAt | src/internal/db/store.go:26-32 | an integer written under a key that no other member uses is read back unchanged by that key |
| Store.LocationMembers | src/internal/db/store.go:69 | the written point reads back with lat under "lat" and lon under "lon" |
| Store.GeoDistanceSortRoundTrip | src/internal/db/store.go:64-77 | the nearest-first body is read back with the same size, lat, lon, order, unit, distance type and ignore_unmapped |
| Store.QueryRoundTrip | src/internal/db/store.go:26-32 | every encodable query is read back as itself |
| Store.PlacesRequestShape | src/internal/db/store.go:26-43 | `GetPlaces` asks index "places" for match_all with from = offset and size = limit, with exact total tracking |
| Store.NearestRequestShape | src/internal/db/store.go:64-87 | `GetClosetPlaces` asks index "places" for size = limit with one `_geo_distance` sort: location = the arguments, "asc", "km", "arc", ignore_unmapped true. It requests no total |
| Store.GetPlaces | src/internal/db/store.go:25-61 | a query body is never the failure. On success the places are the hits' sources, in the same number and order, and the total is `hits.total.value`. On failure the error is exactly the search's: the "searching" or the "parsing" error |
| Store.GetClosetPlaces | src/internal/db/store.go:63-105 | it fails on encoding exactly when a coordinate is not finite. It succeeds exactly when the coordinates are finite and the search and decode succeed. On success the places are the hits' sources, in the same number and order. With finite coordinates a failure is exactly the search's "searching" or "parsing" error |
| Store.RunSearch | src/internal/db/store.go:39-53 | a transport error is the "searching" error, and an unreadable body is the "parsing" error. A readable body gives what decoding it gives. When decoding fails, the error is the "parsing" error carrying the decode error |
| Store.RunSearchIgnoresStatus | src/internal/db/store.go:44-53 | two replies with the same body give the same result whatever their statuses: `res.IsError()` is never consulted |
| Store.GetPlacesReturnsEngineHits | src/internal/db/store.go:49-60 | whatever result set the engine writes, at any status, `GetPlaces` returns its sources in hit order and its total |
| Store.GetClosetPlacesReturnsEngineHits | src/internal/db/store.go:93-104 | whatever result set the engine writes, `GetClosetPlaces` returns its sources in hit order |
| Store.GetPlacesIgnoresStatus | src/internal/db/store.go:39-53 | the response status is never checked: an error body without `hits` becomes an empty page with total 0 and no error |
| Store.GetPlacesErrors | src/internal/db/store.go:44-52 | a transport error is the "searching" error; an unreadable body is the "parsing" error |
| Store.GetClosetPlacesErrors | src/internal/db/store.go:88-96 | the same two errors for the nearest-first search |
| Server.ValidatePage | src/cmd/startServer/main.go:13-18 | a page string is accepted exactly when `strconv.Atoi` reads it as a non-negative integer, and the page is that integer |
| Server.OtherSpellingsAccepted | src/cmd/startServer/main.go:68-73 | "+5", "007" and "-0" are accepted as pages 5, 7 and 0 |
| Server.ValidPagesAccepted | src/cmd/startServer/main.go:68-73 | every non-negative page written in decimal is accepted as itself |
| Server.InvalidPagesRejected | src/cmd/startServer/main.go:13-18 | negative pages, a missing page parameter and non-integers are rejected |
| Server.Offset | src/cmd/startServer/main.go:26-27 | page 0 gives offset -10. For 1 <= page <= 922337203685477581 the offset is (page-1)*10, non-negative and a multiple of 10 |
| Server.HugePageOffsetWraps | src/cmd/startServer/main.go:81-82 | page 922337203685477582 is accepted, and its offset wraps to a negative number |
| Server.NextPage | src/cmd/startServer/main.go:55 | the next page is page+1 with no clamping, wrapping only at the largest int |
| Server.PrevPage | src/cmd/startServer/main.go:56 | the previous page is page-1 with no clamping: page 0 has previous page -1 |
| Server.NextPrevInverse | src/cmd/startServer/main.go:104-105 | previous and next page undo each other for every page |
| Server.Trunc | src/cmd/startServer/main.go:40 | `int(x)` truncates toward zero |
| Server.LastPage | src/cmd/startServer/main.go:39-42 | the last page is the ceiling of total/10: (last-1)*10 < total <= last*10, and 0 for an empty index |
| Server.TruncatedQuotient | src/cmd/startServer/main.go:88-91 | the truncate-then-add-one rule adds one exactly when 10 does not divide the total |
| Server.FetchPage | src/cmd/startServer/main.go:26-31 | the page fetches window Offset(page) of 10 and computes the next, previous and last page. On a store error places are nil and total and last page are 0, and the error reported is exactly the one `GetPlaces` returned |
| Server.RootHandler | src/cmd/startServer/main.go:12-58 | a page string is rejected with the fixed message exactly when validation fails; otherwise it serves exactly the store error and view that fetching the validated page gives |
| Server.PlacesJson | src/cmd/startServer/main.go:143 | a list of places marshals exactly when all locations are finite, as an array of the same length. Element i is place i marshalled, so the order is kept |
| Server.PageJson | src/cmd/startServer/main.go:93-111 | the JSON page marshals exactly when its places are nil or all finite. It has exactly the members places, prev_page, next_page, last_page. `places` is null for nil places and otherwise the marshalled array of the view's places |
| Server.ApiPlacesHandler | src/cmd/startServer/main.go:67-111 | the same validation and fixed message as the HTML handler. A valid page serves the store error of fetching it, and the JSON body of the fetched view |
| Server.HandlersAgree | src/cmd/startServer/main.go:81-105 | both page handlers reject the same strings and see the same store error. The JSON handler writes the previous, next and last page the HTML handler shows, and `null` places exactly when it shows none |
| Server.PageFieldsRead | src/cmd/startServer/main.go:93-107 | each of the four members of a page body is read back by its own key |
| Server.PageJsonMembers | src/cmd/startServer/main.go:93-107 | the previous, next and last page written in the JSON body are read back unchanged |
| Server.RejectedBeforeQuery | src/cmd/startServer/main.go:13-18 | a rejected page string gets the 400 answer whatever the engine would say: no query is made |
| Server.PageAsksForOneWindow | src/cmd/startServer/main.go:26-28 | a valid page asks the engine only for match_all, from Offset(page), size 10 |
| Server.PageZeroErrorIsEmptyPage | src/cmd/startServer/main.go:26-28 | page "0" asks from offset -10. If the engine answers with an error body, the page is empty: total 0, last page 0, previous -1, next 1 |
| Server.ApiRecommendHandler | src/cmd/startServer/main.go:121-146 | coordinates are refused exactly when one does not parse. A store error gives a `null` body. The store error is an encoding error exactly when a parsed coordinate is not finite. The store error is exactly `GetClosetPlaces`' error at the parsed point with limit 3, and on success the body is its places marshalled |
| Server.RecommendReturnsEngineHits | src/cmd/startServer/main.go:135-143 | whatever result set the engine writes for the nearest-first request, the handler writes its places in the engine's order, with no error |
| Server.RecommendAsksForThree | src/cmd/startServer/main.go:135-136 | the recommendation handler asks the engine only for the nearest-first query, with size 3 at the parsed point |

## Left out

- Bulk ingestion concurrency is not modelled: the goroutine per row, the wait group and the atomic counter in src/cmd/loadData/main.go, and the batching, flushing and retries inside the bulk indexer library. The callbacks are modelled one after another (`Indexer.Tally`).
- src/internal/db/client.go is not part of this model. It configures the client and its retry back-off, which is foreign code.
- File reading in `loadPlaces` is CSV and file I/O, so it is not modelled.
- HTTP plumbing is not modelled:
  - writing the responses;
  - template parsing and rendering;
  - `MarshalIndent`'s whitespace;
  - route registration.
- The missing `return` after a 500 is modelled only as "carry on with nil places". A client-creation failure is left out, because the client is not modelled.
- Server.ApiRecommendHandler: when a coordinate does not parse, the model stops with `BadCoordinates`. The code writes a 500 and carries on. When only one coordinate fails, it panics while building the message from the other, nil, error.
- Server.LastPage: computed over exact reals. It ignores float64 rounding of `float64(total) / 10`. That rounding cannot change the result for totals below 2^53.
- Engine behaviour is not modelled: geo-distance ordering, overwrite by id, and the mapping. The engine's replies are inputs.
- Float parsing and formatting are parameters (`FloatSyntax`), and IEEE arithmetic is not modelled.
- `Json` decoding omits some of `encoding/json`:
  - case-insensitive member matching;
  - merging of duplicate object members;
  - `MarshalIndent`'s text.
- Models.DecodeSearchResponse: of a duplicated member only the last occurrence is read. Go decodes every occurrence in turn: it merges duplicated objects and reports a wrong kind in any occurrence. For example, a body with `"hits": 5` followed by `"hits": {}` is a parsing error in Go but an empty page in the model. When a body has two members of the wrong kind, the model reports the first in its own reading order (`total` before `hits`, `name` before `location`), whereas Go's decoder carries on past a wrong kind and reports the first in document order. For example, `{"hits": {"hits": 5, "total": {"value": "x"}}}` gives the model's error for `value` but Go's for `hits.hits`.
- Strings are modelled as valid Unicode text. Go strings are bytes, and `json.Marshal` replaces invalid UTF-8 with U+FFFD. So `Indexer.OfferedBodyIsRowPlace` and `Models.PlaceRoundTrip` hold in Go only for rows whose columns are valid UTF-8.
- The JSON text layer itself is not modelled. A response body is a parsed tree: the first JSON value the body begins with, or None when it does not begin with one. Text after that first value is not read, as with `json.NewDecoder(..).Decode`.
- Indexer.AddPlaceToIndex requires the row to reach column 4, and column 5 whenever column 4 parses. Shorter rows make the source panic on an index out of range.
- Error messages are modelled by their kind and cause, not by their exact formatted text. For a decode error, which member it names can differ from Go when a body has more than one bad member (see the `Models.DecodeSearchResponse` line above).

## Findings

| source | as written | input that shows it | evidently intended | confidence | as-written member | corrected member |
|---|---|---|---|---|---|---|
| src/internal/db/indexer.go:23-24 | `if err != nil \|\| res.IsError() { return err }` returns the transport error, which is nil when the delete got an error response | delete answered with status 500 and no transport error: `SetupIndex` returns nil without creating the index | an error response to the delete is reported as an error, so success means the create was sent | not executed | Indexer.SetupIndex | Indexer.SetupIndexChecked |

=== FILE: indexer.dfy ===
/**
 * Index setup and the per-row submission to the bulk indexer
 * (src/internal/db/indexer.go). The engine's replies and the bulk indexer's
 * `Add` result are inputs; the bulk indexer's batching is not modelled.
 */
module Indexer {
  import opened Wrappers
  import opened Numbers
  import opened Json
  import opened Models

  // ---------------------------------------------------------------- SetupIndex

  /** What the client returns for one request: a transport error, or an HTTP response. */
  datatype EngineReply = TransportError(message: string) | Response(status: int, body: string)

  /** The client's `IsError`: any status above 299. */
  predicate IsErrorResponse(r: EngineReply) {
    r.Response? && r.status > 299
  }

  datatype IndexCall =
    | DeleteIndex(names: seq<string>, ignoreUnavailable: bool)
    | CreateIndex(name: string, mapping: seq<bv8>)

  /** The requests made, the error returned (None is Go's nil) and the responses logged. */
  datatype SetupRun = SetupRun(calls: seq<IndexCall>, err: Option<string>, logged: seq<EngineReply>)

  /**
   * `SetupIndex` as written: delete the index (a missing index is not an error),
   * then create it with the mapping. `deleted` and `created` are the engine's
   * replies to the two requests; `created` is unused when no create is sent.
   */
  function SetupIndex(indexName: string, mapping: seq<bv8>, deleted: EngineReply, created: EngineReply): (r: SetupRun)
    ensures |r.calls| >= 1 && r.calls[0] == DeleteIndex([indexName], true)
    ensures |r.calls| == 2 <==> !deleted.TransportError? && !IsErrorResponse(deleted)
    ensures |r.calls| == 2 ==> r.calls[1] == CreateIndex(indexName, mapping)
    ensures r.err.Some? <==> deleted.TransportError? || (|r.calls| == 2 && created.TransportError?)
    ensures |r.calls| <= 2
    ensures deleted.TransportError? ==> r.err == Some(deleted.message)
    ensures |r.calls| == 2 && created.TransportError? ==> r.err == Some(created.message)
    ensures r.logged == (if |r.calls| == 2 && IsErrorResponse(created) then [created] else [])
  {
    var delete := DeleteIndex([indexName], true);
    if deleted.TransportError? then SetupRun([delete], Some(deleted.message), [])
    else if IsErrorResponse(deleted) then SetupRun([delete], None, [])
    else
      var calls := [delete, CreateIndex(indexName, mapping)];
      if created.TransportError? then SetupRun(calls, Some(created.message), [])
      else if IsErrorResponse(created) then SetupRun(calls, None, [created])
      else SetupRun(calls, None, [])
  }

  /**
   * Success of `SetupIndex` does not mean the index was created: an error
   * response to the delete, or to the create, is reported as success.
   */
  lemma {:induction false} SetupSuccessDoesNotMeanCreated()
    ensures var r := SetupIndex("places", [], Response(500, "boom"), Response(200, ""));
      r.err.None? && r.calls == [DeleteIndex(["places"], true)]
    ensures var r := SetupIndex("places", [], Response(200, ""), Response(400, "bad mapping"));
      r.err.None? && r.logged == [Response(400, "bad mapping")]
  {
  }

  /**
   * The corrected setup: an error response to the delete is an error, so a nil
   * result always means the create request was sent.
   */
  function SetupIndexChecked(indexName: string, mapping: seq<bv8>, deleted: EngineReply, created: EngineReply): (r: SetupRun)
    ensures r.err.None? ==> r.calls == [DeleteIndex([indexName], true), CreateIndex(indexName, mapping)]
    ensures r.err.None? ==> !IsErrorResponse(deleted) && !created.TransportError?
    ensures !IsErrorResponse(deleted) ==> r == SetupIndex(indexName, mapping, deleted, created)
  {
    if IsErrorResponse(deleted) then
      SetupRun([DeleteIndex([indexName], true)], Some("error response deleting index: " + deleted.body), [])
    else SetupIndex(indexName, mapping, deleted, created)
  }

  // ----------------------------------------------------------- NewBulkIndexer

  datatype BulkIndexerConfig = BulkIndexerConfig(index: string, numWorkers: nat, flushBytes: nat, flushIntervalSeconds: nat)

  /** The bulk indexer settings: 8 workers, 5 MiB flush threshold, 30 s flush interval. */
  function NewBulkIndexerConfig(indexName: string): (cfg: BulkIndexerConfig)
    ensures cfg.index == indexName && cfg.numWorkers == 8
    ensures cfg.flushBytes == 5_242_880 && cfg.flushIntervalSeconds == 30
  {
    BulkIndexerConfig(indexName, 8, 5 * 1024 * 1024, 30)
  }

  // ---------------------------------------------------------- AddPlaceToIndex

  const IndexAction: string := "index"

  /** One item handed to the bulk indexer: the action, the document id and the JSON body. */
  datatype BulkItem = BulkItem(action: string, documentId: string, body: Json)

  /**
   * Why a row was not indexed. `LonParse` and `LatParse` carry every
   * `strconv.ParseFloat` error: bad syntax, and also a value out of range
   * such as "1e400".
   */
  datatype AddError =
    | LonParse(literal: string)
    | LatParse(literal: string)
    | MarshalFailed(cause: EncodeError)
    | AddRejected(reason: string)

  /** The item offered to the bulk indexer, if any, and the error returned (None is nil). */
  datatype AddAttempt = AddAttempt(offered: Option<BulkItem>, err: Option<AddError>)

  /**
   * Columns read from a row, in order: 4 (lon), then 5 (lat), then 1, 2, 3 and 0.
   * Go panics on an index past the end, so a row must reach column 4, and must
   * reach column 5 whenever column 4 parses.
   */
  predicate RowReadable(row: seq<string>, parse: string -> Option<Float64>) {
    |row| >= 5 && (parse(row[4]).Some? ==> |row| >= 6)
  }

  /** The document a row describes once both coordinates have parsed. */
  function RowPlace(row: seq<string>, lon: Float64, lat: Float64): Place
    requires |row| >= 4
  {
    Place(row[1], row[2], row[3], GeoPoint(lon, lat))
  }

  /**
   * `AddPlaceToIndex`: parse lon then lat (stopping at the first failure),
   * marshal the place, and offer an "index" item keyed by column 0. `add` is
   * the bulk indexer's answer to `Add` (None when it accepts the item).
   */
  function AddPlaceToIndex(row: seq<string>, fs: FloatSyntax, add: BulkItem -> Option<string>): (r: AddAttempt)
    requires RowReadable(row, fs.parse)
    ensures fs.parse(row[4]).None? ==> r == AddAttempt(None, Some(LonParse(row[4])))
    ensures fs.parse(row[4]).Some? && fs.parse(row[5]).None? ==> r == AddAttempt(None, Some(LatParse(row[5])))
    ensures r.offered.Some? <==>
      fs.parse(row[4]).Some? && fs.parse(row[5]).Some? && IsFinite(fs.parse(row[4]).value) && IsFinite(fs.parse(row[5]).value)
    ensures r.offered.Some? ==>
      && r.offered.value.action == "index"
      && r.offered.value.documentId == row[0]
      && r.offered.value.body == EncodePlace(RowPlace(row, fs.parse(row[4]).value, fs.parse(row[5]).value), fs.format).value
    ensures r.err.None? <==> r.offered.Some? && add(r.offered.value).None?
    ensures fs.parse(row[4]).Some? && fs.parse(row[5]).Some? && r.offered.None? ==> r.err.Some? && r.err.value.MarshalFailed?
    ensures r.offered.Some? && add(r.offered.value).Some? ==> r.err == Some(AddRejected(add(r.offered.value).value))
  {
    match fs.parse(row[4])
    case None => AddAttempt(None, Some(LonParse(row[4])))
    case Some(lon) =>
      match fs.parse(row[5])
      case None => AddAttempt(None, Some(LatParse(row[5])))
      case Some(lat) =>
        match EncodePlace(RowPlace(row, lon, lat), fs.format)
        case Failure(e) => AddAttempt(None, Some(MarshalFailed(e)))
        case Success(body) =>
          var item := BulkItem(IndexAction, row[0], body);
          match add(item)
          case None => AddAttempt(Some(item), None)
          case Some(reason) => AddAttempt(Some(item), Some(AddRejected(reason)))
  }

  /**
   * The body of an offered item is the row's place and nothing else: it has
   * exactly the four place members (the id is not among them) and decodes to
   * columns 1-3 with the parsed coordinates.
   */
  lemma {:induction false} OfferedBodyIsRowPlace(row: seq<string>, fs: FloatSyntax, add: BulkItem -> Option<string>)
    requires RowReadable(row, fs.parse) && RoundTrips(fs)
    requires AddPlaceToIndex(row, fs, add).offered.Some?
    ensures var item := AddPlaceToIndex(row, fs, add).offered.value;
      && item.body.JObj? && Keys(item.body.fields) == PlaceKeys
      && DecodePlace(Some(item.body), fs.parse)
         == Success(Place(row[1], row[2], row[3], GeoPoint(fs.parse(row[4]).value, fs.parse(row[5]).value)))
  {
    var place := RowPlace(row, fs.parse(row[4]).value, fs.parse(row[5]).value);
    PlaceRoundTrip(place, fs);
  }

  /** Coordinates are not range-checked: any finite parsed pair is offered, e.g. lon 1000. */
  lemma {:induction false} NoRangeCheck(row: seq<string>, fs: FloatSyntax, add: BulkItem -> Option<string>)
    requires |row| >= 6
    requires fs.parse(row[4]).Some? && fs.parse(row[5]).Some?
    requires IsFinite(fs.parse(row[4]).value) && IsFinite(fs.parse(row[5]).value)
    ensures AddPlaceToIndex(row, fs, add).offered.Some?
  {
  }

  // ----------------------------------------------------------------- callbacks

  /** Why the bulk indexer reports an item as failed. */
  datatype ItemFailure = ItemTransport(err: string) | ItemRejected(errorType: string, reason: string)

  datatype ItemOutcome = Indexed | Failed(failure: ItemFailure)

  /** `OnSuccess`: `atomic.AddUint64(countSuccessful, 1)`, which wraps at 2^64. */
  function OnSuccess(count: Uint64): (r: Uint64)
    ensures count < MaxUint64 ==> r == count + 1
    ensures count == MaxUint64 ==> r == 0
  {
    (count + 1) % TwoTo64
  }

  /** `OnFailure`: logs the failure and leaves the counter alone. */
  function OnFailure(count: Uint64, failure: ItemFailure): (r: (Uint64, string))
    ensures r.0 == count
  {
    match failure
    case ItemTransport(err) => (count, "ERROR: " + err)
    case ItemRejected(errorType, reason) => (count, "ERROR: " + errorType + ": " + reason)
  }

  /** The counter after the callbacks for `outcomes` have run, one after another. */
  function Tally(count: Uint64, outcomes: seq<ItemOutcome>): (r: Uint64)
    ensures CountIndexed(outcomes) == 0 ==> r == count
    decreases |outcomes|
  {
    if |outcomes| == 0 then count
    else
      var next := match outcomes[0]
        case Indexed => OnSuccess(count)
        case Failed(f) => OnFailure(count, f).0;
      Tally(next, outcomes[1..])
  }

  function CountIndexed(outcomes: seq<ItemOutcome>): nat
    ensures CountIndexed(outcomes) <= |outcomes|
  {
    if |outcomes| == 0 then 0
    else (if outcomes[0].Indexed? then 1 else 0) + CountIndexed(outcomes[1..])
  }

  /** The counter grows by exactly the number of successes, modulo 2^64. */
  lemma {:induction false} TallyCountsSuccesses(count: Uint64, outcomes: seq<ItemOutcome>)
    ensures Tally(count, outcomes) == (count + CountIndexed(outcomes)) % TwoTo64
    decreases |outcomes|
  {
    if |outcomes| > 0 {
      var next := match outcomes[0]
        case Indexed => OnSuccess(count)
        case Failed(f) => OnFailure(count, f).0;
      TallyCountsSuccesses(next, outcomes[1..]);
      if outcomes[0].Indexed? {
        ModAddOne(count, CountIndexed(outcomes[1..]));
      }
    }
  }

  lemma {:induction false} ModAddOne(count: Uint64, k: nat)
    ensures ((count + 1) % TwoTo64 + k) % TwoTo64 == (count + 1 + k) % TwoTo64
  {
    if count == MaxUint64 {
      assert (count + 1) % TwoTo64 == 0;
      assert count + 1 + k == TwoTo64 + k;
    }
  }

  /** Starting from zero, the counter never exceeds the number of items reported. */
  lemma {:induction false} CounterBounded(outcomes: seq<ItemOutcome>)
    requires |outcomes| < TwoTo64
    ensures Tally(0, outcomes) == CountIndexed(outcomes) <= |outcomes|
  {
    TallyCountsSuccesses(0, outcomes);
  }
}

=== FILE: json.dfy ===
/**
 * JSON values as `encoding/json` writes and reads them. Numbers keep their
 * literal text; objects keep their members in wire order.
 */
module Json {
  import opened Wrappers
  import opened Numbers
  import Strconv

  datatype Json =
    | JNull
    | JBool(b: bool)
    | JNum(literal: string)
    | JStr(s: string)
    | JArr(items: seq<Json>)
    | JObj(fields: seq<(string, Json)>)

  /** `json: unsupported value`: Go refuses to marshal a NaN or an infinity. */
  datatype EncodeError = UnsupportedValue(f: Float64)

  /** Why a JSON value could not be stored into a Go field of type `goType`. */
  datatype DecodeError =
    | TypeMismatch(found: Json, goType: string)
    | BadNumber(literal: string, goType: string)

  function Keys(fields: seq<(string, Json)>): (ks: seq<string>)
    ensures |ks| == |fields|
    ensures forall i :: 0 <= i < |fields| ==> ks[i] == fields[i].0
  {
    seq(|fields|, i requires 0 <= i < |fields| => fields[i].0)
  }

  /** The member of an object that a Go struct field named `key` is read from: only the last occurrence of the key is read. */
  function Lookup(fields: seq<(string, Json)>, key: string): Option<Json>
    decreases |fields|
  {
    if |fields| == 0 then None
    else if fields[|fields| - 1].0 == key then Some(fields[|fields| - 1].1)
    else Lookup(fields[..|fields| - 1], key)
  }

  /** A key is found exactly when some member carries it, and what is found is the last such member. */
  lemma {:induction false} LookupFindsLast(fields: seq<(string, Json)>, key: string)
    ensures Lookup(fields, key).None? <==> key !in Keys(fields)
    ensures Lookup(fields, key).Some? ==>
      exists i :: 0 <= i < |fields| && fields[i] == (key, Lookup(fields, key).value)
        && forall j :: i < j < |fields| ==> fields[j].0 != key
    decreases |fields|
  {
    if |fields| > 0 && fields[|fields| - 1].0 != key {
      var prefix := fields[..|fields| - 1];
      LookupFindsLast(prefix, key);
      assert Keys(fields) == Keys(prefix) + [fields[|fields| - 1].0];
      if Lookup(prefix, key).Some? {
        var i :| 0 <= i < |prefix| && prefix[i] == (key, Lookup(prefix, key).value)
          && forall j :: i < j < |prefix| ==> prefix[j].0 != key;
        assert fields[i] == prefix[i];
      }
    }
  }

  /** In an object whose keys are distinct, a key finds its own member. */
  lemma {:induction false} LookupDistinct(fields: seq<(string, Json)>, i: nat)
    requires i < |fields|
    requires forall j :: 0 <= j < |fields| && j != i ==> fields[j].0 != fields[i].0
    ensures Lookup(fields, fields[i].0) == Some(fields[i].1)
    decreases |fields|
  {
    if i < |fields| - 1 {
      var prefix := fields[..|fields| - 1];
      assert prefix[i] == fields[i];
      LookupDistinct(prefix, i);
    }
  }

  /** A Go `int` on the wire. */
  function IntJson(n: int): Json {
    JNum(Strconv.Itoa(n))
  }

  /** A Go `float64` on the wire; marshalling fails on a non-finite value. */
  function FloatJson(f: Float64, format: Float64 -> string): (r: Result<Json, EncodeError>)
    ensures r.Success? <==> IsFinite(f)
  {
    if IsFinite(f) then Success(JNum(format(f))) else Failure(UnsupportedValue(f))
  }

  // Decoding into one Go field. A missing member and `null` both leave the
  // field at its zero value; a value of the wrong JSON kind is an error.

  function StringField(v: Option<Json>): (r: Result<string, DecodeError>)
  {
    match v
    case None => Success("")
    case Some(JNull) => Success("")
    case Some(JStr(s)) => Success(s)
    case Some(other) => Failure(TypeMismatch(other, "string"))
  }

  function FloatField(v: Option<Json>, parse: string -> Option<Float64>): (r: Result<Float64, DecodeError>)
  {
    match v
    case None => Success(PositiveZero)
    case Some(JNull) => Success(PositiveZero)
    case Some(JNum(lit)) =>
      (match parse(lit)
       case Some(f) => Success(f)
       case None => Failure(BadNumber(lit, "float64")))
    case Some(other) => Failure(TypeMismatch(other, "float64"))
  }

  function IntField(v: Option<Json>): (r: Result<Int64, DecodeError>)
  {
    match v
    case None => Success(0)
    case Some(JNull) => Success(0)
    case Some(JNum(lit)) =>
      (match Strconv.Atoi(lit)
       case Some(n) => Success(n)
       case None => Failure(BadNumber(lit, "int")))
    case Some(other) => Failure(TypeMismatch(other, "int"))
  }

  /** The members a struct field is decoded from: none when missing or `null`. */
  function ObjectFields(v: Option<Json>): (r: Result<seq<(string, Json)>, DecodeError>)
  {
    match v
    case None => Success([])
    case Some(JNull) => Success([])
    case Some(JObj(fields)) => Success(fields)
    case Some(other) => Failure(TypeMismatch(other, "struct"))
  }

  /** The elements a slice field is decoded from: a nil slice when missing or `null`. */
  function ArrayItems(v: Option<Json>): (r: Result<seq<Json>, DecodeError>)
  {
    match v
    case None => Success([])
    case Some(JNull) => Success([])
    case Some(JArr(items)) => Success(items)
    case Some(other) => Failure(TypeMismatch(other, "slice"))
  }

  /** Each field decoder reads back what the matching encoder wrote. */
  lemma {:induction false} FieldRoundTrips(fs: FloatSyntax, s: string, n: Int64, f: Float64)
    requires RoundTrips(fs) && IsFinite(f)
    ensures StringField(Some(JStr(s))) == Success(s)
    ensures IntField(Some(IntJson(n))) == Success(n)
    ensures FloatField(Some(FloatJson(f, fs.format).value), fs.parse) == Success(f)
  {
    Strconv.AtoiItoa(n);
  }
}

=== FILE: models.dfy ===
/**
 * The document and response types of the place index: a `Place` with its
 * `GeoPoint`, and the slice of a search response (`EsSearch`) the store reads.
 */
module Models {
  import opened Wrappers
  import opened Numbers
  import opened Json

  /** A location; on the wire `{"lon": .., "lat": ..}`. */
  datatype GeoPoint = GeoPoint(lon: Float64, lat: Float64)

  /** One indexed document. It carries no document id: the id travels beside it. */
  datatype Place = Place(name: string, address: string, phone: string, location: GeoPoint)

  datatype Total = Total(value: Int64)
  datatype Hit = Hit(source: Place)
  datatype Hits = Hits(total: Total, hits: seq<Hit>)

  /** The parts of a search response the store decodes: `hits.total.value` and `hits.hits[]._source`. */
  datatype EsSearch = EsSearch(hits: Hits)

  const PlaceKeys: seq<string> := ["name", "address", "phone", "location"]
  const GeoPointKeys: seq<string> := ["lon", "lat"]

  /** Go's zero `Place`, what a `null` or missing `_source` decodes to. */
  const ZeroPlace: Place := Place("", "", "", GeoPoint(PositiveZero, PositiveZero))

  predicate HasFiniteLocation(p: Place) {
    IsFinite(p.location.lon) && IsFinite(p.location.lat)
  }

  predicate AllFinite(places: seq<Place>) {
    forall i :: 0 <= i < |places| ==> HasFiniteLocation(places[i])
  }

  function EncodeGeoPoint(g: GeoPoint, format: Float64 -> string): (r: Result<Json, EncodeError>)
    ensures r.Success? <==> IsFinite(g.lon) && IsFinite(g.lat)
    ensures r.Success? ==> r.value.JObj? && Keys(r.value.fields) == GeoPointKeys
  {
    var lon :- FloatJson(g.lon, format);
    var lat :- FloatJson(g.lat, format);
    Success(JObj([("lon", lon), ("lat", lat)]))
  }

  /** `json.Marshal(place)`: the four members in struct order. */
  function EncodePlace(p: Place, format: Float64 -> string): (r: Result<Json, EncodeError>)
    ensures r.Success? <==> HasFiniteLocation(p)
    ensures r.Success? ==> r.value.JObj? && Keys(r.value.fields) == PlaceKeys
  {
    var location :- EncodeGeoPoint(p.location, format);
    Success(JObj([("name", JStr(p.name)), ("address", JStr(p.address)), ("phone", JStr(p.phone)), ("location", location)]))
  }

  /** Marshals a slice of places element by element, stopping at the first failure. */
  function EncodePlaces(places: seq<Place>, format: Float64 -> string): (r: Result<seq<Json>, EncodeError>)
    ensures r.Success? <==> AllFinite(places)
    ensures r.Success? ==> |r.value| == |places|
    ensures r.Success? ==> forall i :: 0 <= i < |places| ==> r.value[i] == EncodePlace(places[i], format).value
  {
    if |places| == 0 then Success([])
    else
      var first :- EncodePlace(places[0], format);
      var rest :- EncodePlaces(places[1..], format);
      assert forall i :: 1 <= i < |places| ==> places[i] == places[1..][i - 1];
      Success([first] + rest)
  }

  function DecodeGeoPoint(v: Option<Json>, parse: string -> Option<Float64>): Result<GeoPoint, DecodeError> {
    var fields :- ObjectFields(v);
    var lon :- FloatField(Lookup(fields, "lon"), parse);
    var lat :- FloatField(Lookup(fields, "lat"), parse);
    Success(GeoPoint(lon, lat))
  }

  /** Decoding into a `Place`: members other than the four named ones are ignored. */
  function DecodePlace(v: Option<Json>, parse: string -> Option<Float64>): Result<Place, DecodeError> {
    var fields :- ObjectFields(v);
    var name :- StringField(Lookup(fields, "name"));
    var address :- StringField(Lookup(fields, "address"));
    var phone :- StringField(Lookup(fields, "phone"));
    var location :- DecodeGeoPoint(Lookup(fields, "location"), parse);
    Success(Place(name, address, phone, location))
  }

  lemma {:induction false} GeoPointRoundTrip(g: GeoPoint, fs: FloatSyntax)
    requires RoundTrips(fs) && IsFinite(g.lon) && IsFinite(g.lat)
    ensures DecodeGeoPoint(Some(EncodeGeoPoint(g, fs.format).value), fs.parse) == Success(g)
  {
    var lon := FloatJson(g.lon, fs.format).value;
    var lat := FloatJson(g.lat, fs.format).value;
    var fields := [("lon", lon), ("lat", lat)];
    assert EncodeGeoPoint(g, fs.format).value == JObj(fields);
    LookupDistinct(fields, 0);
    LookupDistinct(fields, 1);
    FieldRoundTrips(fs, "", 0, g.lon);
    FieldRoundTrips(fs, "", 0, g.lat);
  }

  /** A place written by `json.Marshal` decodes back to itself. */
  lemma {:induction false} PlaceRoundTrip(p: Place, fs: FloatSyntax)
    requires RoundTrips(fs) && HasFiniteLocation(p)
    ensures DecodePlace(Some(EncodePlace(p, fs.format).value), fs.parse) == Success(p)
  {
    var location := EncodeGeoPoint(p.location, fs.format).value;
    var fields := [("name", JStr(p.name)), ("address", JStr(p.address)), ("phone", JStr(p.phone)), ("location", location)];
    assert EncodePlace(p, fs.format).value == JObj(fields);
    assert Lookup(fields, "name") == Some(JStr(p.name)) by { LookupDistinct(fields, 0); }
    assert Lookup(fields, "address") == Some(JStr(p.address)) by { LookupDistinct(fields, 1); }
    assert Lookup(fields, "phone") == Some(JStr(p.phone)) by { LookupDistinct(fields, 2); }
    assert DecodeGeoPoint(Lookup(fields, "location"), fs.parse) == Success(p.location) by {
      LookupDistinct(fields, 3);
      GeoPointRoundTrip(p.location, fs);
    }
    DecodePlaceOfFields(fields, fs.parse, p);
  }

  /** Decoding a place reads only the four named members. */
  lemma {:induction false} DecodePlaceOfFields(fields: seq<(string, Json)>, parse: string -> Option<Float64>, p: Place)
    requires Lookup(fields, "name") == Some(JStr(p.name))
    requires Lookup(fields, "address") == Some(JStr(p.address))
    requires Lookup(fields, "phone") == Some(JStr(p.phone))
    requires DecodeGeoPoint(Lookup(fields, "location"), parse) == Success(p.location)
    ensures DecodePlace(Some(JObj(fields)), parse) == Success(p)
  {
    assert ObjectFields(Some(JObj(fields))) == Success(fields);
    assert StringField(Lookup(fields, "name")) == Success(p.name);
    assert StringField(Lookup(fields, "address")) == Success(p.address);
    assert StringField(Lookup(fields, "phone")) == Success(p.phone);
  }

  /** A hit whose `_source` is missing or `null` holds the zero place. */
  lemma {:induction false} NullSourceIsZeroPlace(fields: seq<(string, Json)>, parse: string -> Option<Float64>)
    requires Lookup(fields, "_source") == None || Lookup(fields, "_source") == Some(JNull)
    ensures DecodeHit(JObj(fields), parse) == Success(Hit(ZeroPlace))
  {
  }

  function DecodeHit(item: Json, parse: string -> Option<Float64>): Result<Hit, DecodeError> {
    var fields :- ObjectFields(Some(item));
    var source :- DecodePlace(Lookup(fields, "_source"), parse);
    Success(Hit(source))
  }

  /** Decodes the `hits.hits` array element by element, keeping length and order. */
  function DecodeHits(items: seq<Json>, parse: string -> Option<Float64>): (r: Result<seq<Hit>, DecodeError>)
    ensures r.Success? <==> forall i :: 0 <= i < |items| ==> DecodeHit(items[i], parse).Success?
    ensures r.Success? ==> |r.value| == |items|
    ensures r.Success? ==> forall i :: 0 <= i < |items| ==> r.value[i] == DecodeHit(items[i], parse).value
  {
    if |items| == 0 then Success([])
    else
      var first :- DecodeHit(items[0], parse);
      var rest :- DecodeHits(items[1..], parse);
      assert forall i :: 1 <= i < |items| ==> items[i] == items[1..][i - 1];
      Success([first] + rest)
  }

  /** `json.NewDecoder(res.Body).Decode(&EsSearch)` on an already well-formed body. */
  function DecodeSearchResponse(j: Json, parse: string -> Option<Float64>): (r: Result<EsSearch, DecodeError>)
    ensures j.JNull? ==> r == Success(EsSearch(Hits(Total(0), [])))
    ensures !j.JObj? && !j.JNull? ==> r.Failure?
  {
    var top :- ObjectFields(Some(j));
    var hits :- ObjectFields(Lookup(top, "hits"));
    var total :- ObjectFields(Lookup(hits, "total"));
    var value :- IntField(Lookup(total, "value"));
    var items :- ArrayItems(Lookup(hits, "hits"));
    var decoded :- DecodeHits(items, parse);
    Success(EsSearch(Hits(Total(value), decoded)))
  }

  /** The engine's side: a response body carrying `es`, with every member present. */
  function EncodeSearchResponse(es: EsSearch, format: Float64 -> string): (r: Result<Json, EncodeError>)
    ensures r.Success? <==> AllFinite(SourcesOf(es.hits.hits))
  {
    var places :- EncodePlaces(SourcesOf(es.hits.hits), format);
    var items := seq(|places|, i requires 0 <= i < |places| => JObj([("_source", places[i])]));
    Success(JObj([("hits", JObj([("total", JObj([("value", IntJson(es.hits.total.value))])), ("hits", JArr(items))]))]))
  }

  /** The `_source` of each hit, in hit order. */
  function SourcesOf(hits: seq<Hit>): (places: seq<Place>)
    ensures |places| == |hits|
    ensures forall i :: 0 <= i < |hits| ==> places[i] == hits[i].source
  {
    if |hits| == 0 then [] else [hits[0].source] + SourcesOf(hits[1..])
  }

  /** Whatever search response the engine writes is decoded back unchanged. */
  lemma {:induction false} SearchResponseRoundTrip(es: EsSearch, fs: FloatSyntax)
    requires RoundTrips(fs) && AllFinite(SourcesOf(es.hits.hits))
    ensures DecodeSearchResponse(EncodeSearchResponse(es, fs.format).value, fs.parse) == Success(es)
  {
    var places := EncodePlaces(SourcesOf(es.hits.hits), fs.format).value;
    var items := seq(|places|, i requires 0 <= i < |places| => JObj([("_source", places[i])]));
    assert DecodeHits(items, fs.parse) == Success(es.hits.hits) by {
      HitsRoundTrip(es.hits.hits, items, fs);
    }
    var totalFields := [("value", IntJson(es.hits.total.value))];
    var hitsFields := [("total", JObj(totalFields)), ("hits", JArr(items))];
    assert EncodeSearchResponse(es, fs.format).value == JObj([("hits", JObj(hitsFields))]);
    assert Lookup(hitsFields, "total") == Some(JObj(totalFields)) by { LookupDistinct(hitsFields, 0); }
    assert Lookup(hitsFields, "hits") == Some(JArr(items)) by { LookupDistinct(hitsFields, 1); }
    assert IntField(Lookup(totalFields, "value")) == Success(es.hits.total.value) by {
      FieldRoundTrips(fs, "", es.hits.total.value, PositiveZero);
    }
    DecodeSearchOfParts(hitsFields, totalFields, items, fs.parse, es);
  }

  /** Decoding a response reads only `hits.total.value` and `hits.hits`. */
  lemma {:induction false} DecodeSearchOfParts(hitsFields: seq<(string, Json)>, totalFields: seq<(string, Json)>,
                                               items: seq<Json>, parse: string -> Option<Float64>, es: EsSearch)
    requires Lookup(hitsFields, "total") == Some(JObj(totalFields))
    requires Lookup(hitsFields, "hits") == Some(JArr(items))
    requires IntField(Lookup(totalFields, "value")) == Success(es.hits.total.value)
    requires DecodeHits(items, parse) == Success(es.hits.hits)
    ensures DecodeSearchResponse(JObj([("hits", JObj(hitsFields))]), parse) == Success(es)
  {
    assert Lookup([("hits", JObj(hitsFields))], "hits") == Some(JObj(hitsFields));
  }

  /** The array the engine writes for a list of hits decodes back to that list. */
  lemma {:induction false} HitsRoundTrip(hits: seq<Hit>, items: seq<Json>, fs: FloatSyntax)
    requires RoundTrips(fs) && AllFinite(SourcesOf(hits))
    requires |items| == |hits|
    requires forall i :: 0 <= i < |items| ==> items[i] == JObj([("_source", EncodePlace(hits[i].source, fs.format).value)])
    ensures DecodeHits(items, fs.parse) == Success(hits)
  {
    forall i | 0 <= i < |items|
      ensures DecodeHit(items[i], fs.parse) == Success(hits[i])
    {
      assert SourcesOf(hits)[i] == hits[i].source;
      HitRoundTrip(hits[i], fs);
    }
    DecodeHitsOfParts(items, hits, fs.parse);
  }

  /** One hit as the engine writes it decodes back to that hit. */
  lemma {:induction false} HitRoundTrip(hit: Hit, fs: FloatSyntax)
    requires RoundTrips(fs) && HasFiniteLocation(hit.source)
    ensures DecodeHit(JObj([("_source", EncodePlace(hit.source, fs.format).value)]), fs.parse) == Success(hit)
  {
    var fields := [("_source", EncodePlace(hit.source, fs.format).value)];
    assert Lookup(fields, "_source") == Some(fields[0].1);
    PlaceRoundTrip(hit.source, fs);
  }

  /** An array whose every element decodes to the hit at its index decodes to those hits. */
  lemma {:induction false} DecodeHitsOfParts(items: seq<Json>, hits: seq<Hit>, parse: string -> Option<Float64>)
    requires |items| == |hits|
    requires forall i :: 0 <= i < |items| ==> DecodeHit(items[i], parse) == Success(hits[i])
    ensures DecodeHits(items, parse) == Success(hits)
  {
    assert DecodeHits(items, parse).value == hits;
  }

  /**
   * The places of a decoded response come only from `hits.hits[i]._source`, one
   * per array element and in array order, and the total only from `hits.total.value`.
   */
  lemma {:induction false} DecodedFromSourcesOnly(j: Json, parse: string -> Option<Float64>)
    requires DecodeSearchResponse(j, parse).Success?
    ensures var es := DecodeSearchResponse(j, parse).value;
      var hits := ObjectFields(Lookup(ObjectFields(Some(j)).value, "hits")).value;
      var items := ArrayItems(Lookup(hits, "hits")).value;
      && |es.hits.hits| == |items|
      && (forall i :: 0 <= i < |items| ==>
            es.hits.hits[i].source == DecodePlace(Lookup(ObjectFields(Some(items[i])).value, "_source"), parse).value)
      && es.hits.total.value == IntField(Lookup(ObjectFields(Lookup(hits, "total")).value, "value")).value
  {
  }

  /** A response that has no `hits` member (an engine error body, say) decodes to zero hits and a zero total. */
  lemma {:induction false} MissingHitsDecodesEmpty(fields: seq<(string, Json)>, parse: string -> Option<Float64>)
    requires "hits" !in Keys(fields)
    ensures DecodeSearchResponse(JObj(fields), parse) == Success(EsSearch(Hits(Total(0), [])))
  {
    LookupFindsLast(fields, "hits");
  }
}

=== FILE: numbers.dfy ===
/** Go's fixed-width integers and IEEE 754 float64 values, as the rest of the model sees them. */
module Numbers {
  import opened Wrappers

  const MinInt64: int := -0x8000_0000_0000_0000
  const MaxInt64: int := 0x7FFF_FFFF_FFFF_FFFF
  const MaxUint64: int := 0xFFFF_FFFF_FFFF_FFFF
  const TwoTo64: int := 0x1_0000_0000_0000_0000

  /** Go's `int` on a 64-bit platform. */
  type Int64 = x: int | -0x8000_0000_0000_0000 <= x <= 0x7FFF_FFFF_FFFF_FFFF

  /** Go's `uint64`, the type of the shared success counter. */
  type Uint64 = x: int | 0 <= x <= 0xFFFF_FFFF_FFFF_FFFF

  /** Two's-complement wrap-around of Go's `int` arithmetic. */
  function Wrap64(x: int): (r: Int64)
    ensures (x - r) % TwoTo64 == 0
    ensures MinInt64 <= x <= MaxInt64 ==> r == x
  {
    var m := x % TwoTo64;
    if m <= MaxInt64 then m else m - TwoTo64
  }

  /** An IEEE 754 binary64 value as its three bit fields; the model never computes with it. */
  datatype Float64 = Float64(sign: bool, exponent: bv11, mantissa: bv52)

  /** Go's zero value for `float64` (+0.0). */
  const PositiveZero: Float64 := Float64(false, 0, 0)

  /** Neither an infinity nor a NaN: the exponent field is not all ones. */
  predicate IsFinite(f: Float64) {
    f.exponent != 0x7FF
  }

  /**
   * The decimal text syntax of float64 values, which is foreign code:
   * `parse` is `strconv.ParseFloat(s, 64)` (None when it returns an error),
   * `format` is the number text `encoding/json` writes for a finite value.
   */
  datatype FloatSyntax = FloatSyntax(parse: string -> Option<Float64>, format: Float64 -> string)

  /** Go's guarantee that a formatted float64 parses back to the same value. */
  ghost predicate RoundTrips(fs: FloatSyntax) {
    forall f :: IsFinite(f) ==> fs.parse(fs.format(f)) == Some(f)
  }
}

=== FILE: server.dfy ===
/**
 * The pure part of the HTTP handlers (src/cmd/startServer/main.go): page
 * validation, the 64-bit paging arithmetic shared by the two page handlers,
 * the data each page handler produces, and the fixed limit of the
 * recommendation handler. The engine is the `search` input of the store.
 */
module Server {
  import opened Wrappers
  import opened Numbers
  import opened Json
  import opened Models
  import opened Store
  import Strconv

  /** Documents per page in both page handlers. */
  const PageLimit: Int64 := 10

  /** Places the recommendation handler asks for. */
  const RecommendLimit: Int64 := 3

  /** The 400 message, the same for every rejected page string. */
  const InvalidPageMessage: string := "Invalid 'page' value: 'foo'."

  // ------------------------------------------------------------------ page arithmetic

  /** `strconv.Atoi(pageStr)` followed by the `page < 0` test; an absent parameter is the empty string. */
  function ValidatePage(pageStr: string): (page: Option<Int64>)
    ensures page.Some? <==> Strconv.Atoi(pageStr).Some? && Strconv.Atoi(pageStr).value >= 0
    ensures page.Some? ==> 0 <= page.value && Strconv.Atoi(pageStr) == Some(page.value)
  {
    match Strconv.Atoi(pageStr)
    case Some(n) => if n < 0 then None else Some(n)
    case None => None
  }

  /** Every non-negative page written in decimal is accepted as itself. */
  lemma {:induction false} ValidPagesAccepted(n: Int64)
    requires n >= 0
    ensures ValidatePage(Strconv.Itoa(n)) == Some(n)
  {
    Strconv.AtoiItoa(n);
  }

  /** Spellings other than Itoa's are accepted too: a plus sign, leading zeros, and "-0" as page 0. */
  lemma {:induction false} OtherSpellingsAccepted()
    ensures ValidatePage("+5") == Some(5)
    ensures ValidatePage("007") == Some(7)
    ensures ValidatePage("-0") == Some(0)
  {
    Strconv.AtoiAcceptsDecimal("5");
    Strconv.AtoiAcceptsDecimal("007");
    assert "007"[..2] == "00" && "00"[..1] == "0";
    Strconv.AtoiAcceptsDecimal("0");
    assert "+" + "5" == "+5";
    assert "-" + "0" == "-0";
  }

  /** Negative pages, a missing page and strings that are not integers are rejected. */
  lemma {:induction false} InvalidPagesRejected(n: Int64, s: string)
    requires n < 0
    requires Strconv.Atoi(s).None?
    ensures ValidatePage(Strconv.Itoa(n)) == None
    ensures ValidatePage("") == None
    ensures ValidatePage(s) == None
  {
    Strconv.AtoiItoa(n);
    Strconv.AtoiRejects("");
  }

  /** `(page - 1) * limit` in Go's 64-bit `int`. */
  function Offset(page: Int64): (offset: Int64)
    ensures page == 0 ==> offset == -PageLimit
    ensures 1 <= page <= MaxInt64 / PageLimit + 1 ==>
      && offset == (page - 1) * PageLimit
      && 0 <= offset
      && offset % PageLimit == 0
  {
    Wrap64((page - 1) * PageLimit)
  }

  /** The smallest page whose offset wraps around to a negative number. */
  lemma {:induction false} HugePageOffsetWraps()
    ensures ValidatePage(Strconv.Itoa(922337203685477582)) == Some(922337203685477582)
    ensures Offset(922337203685477582) == -9223372036854775806
  {
    ValidPagesAccepted(922337203685477582);
  }

  /** `page + 1` in Go's 64-bit `int`: no clamping at the last page. */
  function NextPage(page: Int64): (next: Int64)
    ensures page < MaxInt64 ==> next == page + 1
    ensures page == MaxInt64 ==> next == MinInt64
  {
    Wrap64(page + 1)
  }

  /** `page - 1` in Go's 64-bit `int`: no clamping at the first page. */
  function PrevPage(page: Int64): (prev: Int64)
    ensures page > MinInt64 ==> prev == page - 1
    ensures page == MinInt64 ==> prev == MaxInt64
  {
    Wrap64(page - 1)
  }

  /** The previous page of the next page, and the next page of the previous one, is the page itself. */
  lemma {:induction false} NextPrevInverse(page: Int64)
    ensures PrevPage(NextPage(page)) == page
    ensures NextPage(PrevPage(page)) == page
  {
    if page == MaxInt64 {
      assert NextPage(page) == MinInt64;
    }
    if page == MinInt64 {
      assert PrevPage(page) == MaxInt64;
    }
  }

  /** Go's `int(x)` of a float: truncation toward zero. */
  function Trunc(x: real): (t: int)
    ensures 0.0 <= x ==> t as real <= x < t as real + 1.0
    ensures x < 0.0 ==> t as real - 1.0 < x <= t as real
  {
    if x >= 0.0 then x.Floor else -((-x).Floor)
  }

  /**
   * The last page: `total / limit` as a float, plus one when truncation
   * loses a fraction, then truncated. Over exact reals this is the ceiling of
   * total / 10, for negative totals as well.
   */
  function LastPage(total: Int64): (last: Int64)
    ensures (last - 1) * PageLimit < total <= last * PageLimit
    ensures total == 0 ==> last == 0
  {
    var q := total as real / PageLimit as real;
    var adjusted := if (Trunc(q) as real) < q then q + 1.0 else q;
    TruncatedQuotient(total);
    Trunc(adjusted)
  }

  /** The float rule of `LastPage` adds one exactly when 10 does not divide the total. */
  lemma {:induction false} TruncatedQuotient(total: int)
    ensures var q := total as real / 10.0;
      var adjusted := if (Trunc(q) as real) < q then q + 1.0 else q;
      Trunc(adjusted) == if total % 10 == 0 then total / 10 else total / 10 + 1
  {
    var d := total / 10;
    var m := total % 10;
    var q := total as real / 10.0;
    assert q == d as real + m as real / 10.0;
    if m == 0 {
      assert q == d as real;
    } else if total >= 0 {
      assert Trunc(q) == d;
      assert Trunc(q + 1.0) == d + 1;
    } else {
      assert Trunc(q) == d + 1;
    }
  }

  // ------------------------------------------------------------------ the page handlers

  /**
   * The data both page handlers produce. `places` is None where the source
   * holds a nil slice (the store failed) and Some for a slice it built, even
   * an empty one: JSON writes the first as `null` and the second as `[]`.
   */
  datatype PageView = PageView(places: Option<seq<Place>>, total: Int64, page: Int64,
                               nextPage: Int64, prevPage: Int64, lastPage: Int64)

  /** A rejected page string, or the store error (written as a 500, then carried on) and the result. */
  datatype Reply<T> = BadPage(message: string) | Served(storeError: Option<QueryError>, data: T)

  /** Fetches page `page` and computes its neighbours and the last page; shared by both handlers. */
  function FetchPage(page: Int64, fs: FloatSyntax, search: SearchRequest -> SearchReply): (r: (Option<QueryError>, PageView))
    ensures r.1.page == page && r.1.nextPage == NextPage(page) && r.1.prevPage == PrevPage(page)
    ensures (r.1.lastPage - 1) * PageLimit < r.1.total <= r.1.lastPage * PageLimit
    ensures r.0.Some? <==> GetPlaces(PageLimit, Offset(page), fs, search).Failure?
    ensures r.0.Some? ==> r.0.value == GetPlaces(PageLimit, Offset(page), fs, search).error
    ensures r.0.Some? ==> r.1.places == None && r.1.total == 0 && r.1.lastPage == 0
    ensures r.0.None? ==>
      && r.1.places == Some(GetPlaces(PageLimit, Offset(page), fs, search).value.places)
      && r.1.total == GetPlaces(PageLimit, Offset(page), fs, search).value.total
  {
    var (places, total, err) :=
      match GetPlaces(PageLimit, Offset(page), fs, search)
      case Success(p) => (Some(p.places), p.total, None)
      case Failure(e) => (None, 0, Some(e));
    (err, PageView(places, total, page, NextPage(page), PrevPage(page), LastPage(total)))
  }

  /** `RootHandler` up to the template: the data handed to `templates/places.html`. */
  function RootHandler(pageStr: string, fs: FloatSyntax, search: SearchRequest -> SearchReply): (r: Reply<PageView>)
    ensures r.BadPage? <==> ValidatePage(pageStr).None?
    ensures r.BadPage? ==> r.message == InvalidPageMessage
    ensures r.Served? ==> r.data.page == ValidatePage(pageStr).value
    ensures r.Served? ==> (r.storeError, r.data) == FetchPage(ValidatePage(pageStr).value, fs, search)
  {
    match ValidatePage(pageStr)
    case None => BadPage(InvalidPageMessage)
    case Some(page) =>
      var (err, view) := FetchPage(page, fs, search);
      Served(err, view)
  }

  /** The JSON array of a list of places. */
  function PlacesJson(places: seq<Place>, format: Float64 -> string): (r: Result<Json, EncodeError>)
    ensures r.Success? <==> AllFinite(places)
    ensures r.Success? ==> r.value.JArr? && |r.value.items| == |places|
    ensures r.Success? ==> forall i :: 0 <= i < |places| ==> r.value.items[i] == EncodePlace(places[i], format).value
  {
    var items :- EncodePlaces(places, format);
    Success(JArr(items))
  }

  /** The `ApiPlacesHandler` body: `places`, `prev_page`, `next_page`, `last_page`; total and page are not written. */
  function PageJson(view: PageView, format: Float64 -> string): (r: Result<Json, EncodeError>)
    ensures r.Success? <==> view.places.None? || AllFinite(view.places.value)
    ensures r.Success? ==> r.value.JObj? && Keys(r.value.fields) == ["places", "prev_page", "next_page", "last_page"]
    ensures r.Success? && view.places.None? ==> r.value.fields[0].1 == JNull
    ensures r.Success? && view.places.Some? ==> r.value.fields[0].1 == PlacesJson(view.places.value, format).value
  {
    var places :- if view.places.None? then Success(JNull) else PlacesJson(view.places.value, format);
    Success(JObj([("places", places), ("prev_page", IntJson(view.prevPage)),
                  ("next_page", IntJson(view.nextPage)), ("last_page", IntJson(view.lastPage))]))
  }

  /** `ApiPlacesHandler` up to the write: the JSON body, or the marshalling error (then an empty body). */
  function ApiPlacesHandler(pageStr: string, fs: FloatSyntax, search: SearchRequest -> SearchReply): (r: Reply<Result<Json, EncodeError>>)
    ensures r.BadPage? <==> ValidatePage(pageStr).None?
    ensures r.BadPage? ==> r.message == InvalidPageMessage
    ensures r.Served? ==>
      var fetched := FetchPage(ValidatePage(pageStr).value, fs, search);
      r.storeError == fetched.0 && r.data == PageJson(fetched.1, fs.format)
  {
    match ValidatePage(pageStr)
    case None => BadPage(InvalidPageMessage)
    case Some(page) =>
      var (err, view) := FetchPage(page, fs, search);
      Served(err, PageJson(view, fs.format))
  }

  /**
   * The two page handlers agree: they reject the same strings, see the same
   * store error, and the JSON handler writes the previous, next and last page
   * the template handler shows, and `null` for places exactly when it shows none.
   */
  lemma {:induction false} HandlersAgree(pageStr: string, fs: FloatSyntax, search: SearchRequest -> SearchReply)
    ensures RootHandler(pageStr, fs, search).BadPage? <==> ApiPlacesHandler(pageStr, fs, search).BadPage?
    ensures RootHandler(pageStr, fs, search).Served? ==>
      var view := RootHandler(pageStr, fs, search).data;
      var api := ApiPlacesHandler(pageStr, fs, search);
      && api.storeError == RootHandler(pageStr, fs, search).storeError
      && (api.data.Success? <==> view.places.None? || AllFinite(view.places.value))
      && (api.data.Success? ==>
            && IntMember(api.data.value.fields, "prev_page") == Some(view.prevPage)
            && IntMember(api.data.value.fields, "next_page") == Some(view.nextPage)
            && IntMember(api.data.value.fields, "last_page") == Some(view.lastPage)
            && (Lookup(api.data.value.fields, "places") == Some(JNull) <==> view.places.None?))
  {
    if RootHandler(pageStr, fs, search).Served? {
      var view := RootHandler(pageStr, fs, search).data;
      var body := PageJson(view, fs.format);
      if body.Success? {
        PageJsonMembers(view, fs.format);
      }
    }
  }

  /** The members of a page body, read back. */
  lemma {:induction false} PageJsonMembers(view: PageView, format: Float64 -> string)
    requires PageJson(view, format).Success?
    ensures var fields := PageJson(view, format).value.fields;
      && IntMember(fields, "prev_page") == Some(view.prevPage)
      && IntMember(fields, "next_page") == Some(view.nextPage)
      && IntMember(fields, "last_page") == Some(view.lastPage)
      && (Lookup(fields, "places") == Some(JNull) <==> view.places.None?)
  {
    var placesJson := if view.places.None? then JNull else PlacesJson(view.places.value, format).value;
    var fields := [("places", placesJson), ("prev_page", IntJson(view.prevPage)),
                   ("next_page", IntJson(view.nextPage)), ("last_page", IntJson(view.lastPage))];
    assert PageJson(view, format).value.fields == fields;
    PageFieldsRead(placesJson, view.prevPage, view.nextPage, view.lastPage);
  }

  /** The four members of a page body, each under a key of its own. */
  lemma {:induction false} PageFieldsRead(placesJson: Json, prev: Int64, next: Int64, last: Int64)
    ensures var fields := [("places", placesJson), ("prev_page", IntJson(prev)),
                           ("next_page", IntJson(next)), ("last_page", IntJson(last))];
      && IntMember(fields, "prev_page") == Some(prev)
      && IntMember(fields, "next_page") == Some(next)
      && IntMember(fields, "last_page") == Some(last)
      && Lookup(fields, "places") == Some(placesJson)
  {
    var fields := [("places", placesJson), ("prev_page", IntJson(prev)),
                   ("next_page", IntJson(next)), ("last_page", IntJson(last))];
    Store.IntMemberAt(fields, 1, prev);
    Store.IntMemberAt(fields, 2, next);
    Store.IntMemberAt(fields, 3, last);
    LookupDistinct(fields, 0);
  }

  /** A page string that is rejected is rejected before the engine is asked anything. */
  lemma {:induction false} RejectedBeforeQuery(pageStr: string, fs: FloatSyntax,
                                               search: SearchRequest -> SearchReply, other: SearchRequest -> SearchReply)
    requires ValidatePage(pageStr).None?
    ensures RootHandler(pageStr, fs, search) == RootHandler(pageStr, fs, other) == BadPage(InvalidPageMessage)
    ensures ApiPlacesHandler(pageStr, fs, search) == ApiPlacesHandler(pageStr, fs, other) == BadPage(InvalidPageMessage)
  {
  }

  /** A valid page asks the engine one thing only: `PageLimit` documents from `Offset(page)`. */
  lemma {:induction false} PageAsksForOneWindow(pageStr: string, fs: FloatSyntax,
                                                search: SearchRequest -> SearchReply, other: SearchRequest -> SearchReply)
    requires RoundTrips(fs) && ValidatePage(pageStr).Some?
    requires var page := ValidatePage(pageStr).value;
      search(PlacesRequest(PageLimit, Offset(page), fs.format)) == other(PlacesRequest(PageLimit, Offset(page), fs.format))
    ensures var page := ValidatePage(pageStr).value;
      DecodeQuery(PlacesRequest(PageLimit, Offset(page), fs.format).body, fs.parse) == Some(MatchAll(Offset(page), PageLimit))
    ensures RootHandler(pageStr, fs, search) == RootHandler(pageStr, fs, other)
    ensures ApiPlacesHandler(pageStr, fs, search) == ApiPlacesHandler(pageStr, fs, other)
  {
    var page := ValidatePage(pageStr).value;
    PlacesRequestShape(PageLimit, Offset(page), fs);
  }

  /**
   * Page 0 passes validation and asks for documents from offset -10. When the
   * engine answers that with an error body that has no `hits`, the store's
   * unchecked status makes it an empty first page: places `[]`, total 0, last
   * page 0, previous page -1, next page 1.
   */
  lemma {:induction false} PageZeroErrorIsEmptyPage(fs: FloatSyntax, search: SearchRequest -> SearchReply,
                                                    status: int, fields: seq<(string, Json)>)
    requires "hits" !in Keys(fields)
    requires search(PlacesRequest(PageLimit, -10, fs.format)) == SearchResponse(status, Some(JObj(fields)))
    ensures RootHandler("0", fs, search) == Served(None, PageView(Some([]), 0, 0, 1, -1, 0))
  {
    ValidPagesAccepted(0);
    assert Strconv.Itoa(0) == "0";
    GetPlacesIgnoresStatus(PageLimit, -10, fs, search, status, fields);
  }

  // ------------------------------------------------------------------ recommendations

  /** The coordinates did not parse, or the store error (written as a 500, then carried on) and the JSON body. */
  datatype RecommendReply = BadCoordinates | Recommended(storeError: Option<QueryError>, body: Result<Json, EncodeError>)

  /**
   * `ApiRecommendHandler` up to the write: the nearest `RecommendLimit` places
   * to (lat, lon) as a JSON array, or `null` when the store failed.
   */
  function ApiRecommendHandler(latStr: string, lonStr: string, fs: FloatSyntax,
                               search: SearchRequest -> SearchReply): (r: RecommendReply)
    ensures r.BadCoordinates? <==> fs.parse(latStr).None? || fs.parse(lonStr).None?
    ensures r.Recommended? && r.storeError.Some? ==> r.body == Success(JNull)
    ensures r.Recommended? ==>
      ((r.storeError.Some? && r.storeError.value.EncodingQuery?) <==>
       !(IsFinite(fs.parse(latStr).value) && IsFinite(fs.parse(lonStr).value)))
    ensures r.Recommended? ==>
      var nearest := GetClosetPlaces(RecommendLimit, fs.parse(latStr).value, fs.parse(lonStr).value, fs, search);
      && r.storeError == (if nearest.Failure? then Some(nearest.error) else None)
      && (nearest.Success? ==> r.body == PlacesJson(nearest.value, fs.format))
  {
    match (fs.parse(latStr), fs.parse(lonStr))
    case (Some(lat), Some(lon)) =>
      (match GetClosetPlaces(RecommendLimit, lat, lon, fs, search)
       case Failure(e) => Recommended(Some(e), Success(JNull))
       case Success(places) => Recommended(None, PlacesJson(places, fs.format)))
    case _ => BadCoordinates
  }

  /**
   * The recommendation handler asks the engine one thing only: the 3 places
   * nearest to the parsed point.
   */
  lemma {:induction false} RecommendAsksForThree(latStr: string, lonStr: string, fs: FloatSyntax,
                                                 search: SearchRequest -> SearchReply, other: SearchRequest -> SearchReply)
    requires RoundTrips(fs)
    requires fs.parse(latStr).Some? && fs.parse(lonStr).Some?
    requires IsFinite(fs.parse(latStr).value) && IsFinite(fs.parse(lonStr).value)
    requires var req := NearestRequest(RecommendLimit, fs.parse(latStr).value, fs.parse(lonStr).value, fs.format);
      search(req) == other(req)
    ensures var req := NearestRequest(RecommendLimit, fs.parse(latStr).value, fs.parse(lonStr).value, fs.format);
      && DecodeQuery(req.body, fs.parse).Some?
      && DecodeQuery(req.body, fs.parse).value.size == 3
    ensures ApiRecommendHandler(latStr, lonStr, fs, search) == ApiRecommendHandler(latStr, lonStr, fs, other)
  {
    NearestRequestShape(RecommendLimit, fs.parse(latStr).value, fs.parse(lonStr).value, fs);
  }

  /** Whatever result set the engine writes for that request, the handler writes its places in the engine's order. */
  lemma {:induction false} RecommendReturnsEngineHits(latStr: string, lonStr: string, fs: FloatSyntax,
                                                      search: SearchRequest -> SearchReply, status: int, es: EsSearch)
    requires RoundTrips(fs) && AllFinite(SourcesOf(es.hits.hits))
    requires fs.parse(latStr).Some? && fs.parse(lonStr).Some?
    requires IsFinite(fs.parse(latStr).value) && IsFinite(fs.parse(lonStr).value)
    requires search(NearestRequest(RecommendLimit, fs.parse(latStr).value, fs.parse(lonStr).value, fs.format))
          == SearchResponse(status, Some(EncodeSearchResponse(es, fs.format).value))
    ensures ApiRecommendHandler(latStr, lonStr, fs, search) == Recommended(None, PlacesJson(SourcesOf(es.hits.hits), fs.format))
  {
    GetClosetPlacesReturnsEngineHits(RecommendLimit, fs.parse(latStr).value, fs.parse(lonStr).value, fs, search, status, es);
  }
}

=== FILE: store.dfy ===
/**
 * The query store (src/internal/db/store.go): builds a query body, sends it to
 * the "places" index, decodes the reply and projects the hits to places. The
 * engine is an input function from requests to replies.
 */
module Store {
  import opened Wrappers
  import opened Numbers
  import opened Json
  import opened Models
  import Strconv

  const PlacesIndex: string := "places"

  /** The two query bodies the store sends. */
  datatype Query =
    | MatchAll(from: Int64, size: Int64)
    | GeoDistanceSort(size: Int64, lat: Float64, lon: Float64,
                      order: string, unit: string, distanceType: string, ignoreUnmapped: bool)

  /** The paging query of `GetPlaces`. */
  function PlacesQuery(limit: Int64, offset: Int64): Query {
    MatchAll(offset, limit)
  }

  /** The nearest-first query of `GetClosetPlaces`: ascending arc distance in km, unmapped documents ignored. */
  function NearestQuery(limit: Int64, lat: Float64, lon: Float64): Query {
    GeoDistanceSort(limit, lat, lon, "asc", "km", "arc", true)
  }

  predicate HasFiniteCoordinates(q: Query) {
    q.GeoDistanceSort? ==> IsFinite(q.lat) && IsFinite(q.lon)
  }

  /**
   * The query body as `json.NewEncoder(&buf).Encode` writes the source's
   * `map[string]any`: Go writes map keys in sorted order, so "from" comes before
   * "query" and "size", and "lat" before "lon".
   */
  function EncodeQuery(q: Query, format: Float64 -> string): (r: Result<Json, EncodeError>)
    ensures r.Success? <==> HasFiniteCoordinates(q)
    ensures r.Success? ==> r.value.JObj?
  {
    match q
    case MatchAll(from, size) =>
      Success(JObj([("from", IntJson(from)), ("query", JObj([("match_all", JObj([]))])), ("size", IntJson(size))]))
    case GeoDistanceSort(size, lat, lon, order, unit, distanceType, ignoreUnmapped) =>
      var latJson :- FloatJson(lat, format);
      var lonJson :- FloatJson(lon, format);
      var clause := [("distance_type", JStr(distanceType)), ("ignore_unmapped", JBool(ignoreUnmapped)),
                     ("location", JObj([("lat", latJson), ("lon", lonJson)])), ("order", JStr(order)), ("unit", JStr(unit))];
      Success(JObj([("size", IntJson(size)), ("sort", JArr([JObj([("_geo_distance", JObj(clause))])]))]))
  }

  // A reference reading of a query body, member by member: what the engine is asked for.

  function IntMember(fields: seq<(string, Json)>, key: string): Option<Int64> {
    match Lookup(fields, key)
    case Some(JNum(lit)) => Strconv.Atoi(lit)
    case _ => None
  }

  function FloatMember(fields: seq<(string, Json)>, key: string, parse: string -> Option<Float64>): Option<Float64> {
    match Lookup(fields, key)
    case Some(JNum(lit)) => parse(lit)
    case _ => None
  }

  function StringMember(fields: seq<(string, Json)>, key: string): Option<string> {
    match Lookup(fields, key)
    case Some(JStr(s)) => Some(s)
    case _ => None
  }

  function BoolMember(fields: seq<(string, Json)>, key: string): Option<bool> {
    match Lookup(fields, key)
    case Some(JBool(b)) => Some(b)
    case _ => None
  }

  function ObjectMember(fields: seq<(string, Json)>, key: string): Option<seq<(string, Json)>> {
    match Lookup(fields, key)
    case Some(JObj(inner)) => Some(inner)
    case _ => None
  }

  /** An integer written under a key of its own is read back by that key. */
  lemma {:induction false} IntMemberAt(fields: seq<(string, Json)>, i: nat, n: Int64)
    requires i < |fields| && fields[i].1 == IntJson(n)
    requires forall j :: 0 <= j < |fields| && j != i ==> fields[j].0 != fields[i].0
    ensures IntMember(fields, fields[i].0) == Some(n)
  {
    LookupDistinct(fields, i);
    Strconv.AtoiItoa(n);
  }

  /** The single `_geo_distance` clause of a one-element `sort` array. */
  function GeoClause(fields: seq<(string, Json)>): Option<seq<(string, Json)>> {
    match Lookup(fields, "sort")
    case Some(JArr(items)) =>
      if |items| == 1 && items[0].JObj? then ObjectMember(items[0].fields, "_geo_distance") else None
    case _ => None
  }

  function DecodeQuery(j: Json, parse: string -> Option<Float64>): Option<Query> {
    if !j.JObj? then None
    else
      var size :- IntMember(j.fields, "size");
      if Lookup(j.fields, "query") == Some(JObj([("match_all", JObj([]))])) then
        var from :- IntMember(j.fields, "from");
        Some(MatchAll(from, size))
      else
        var clause :- GeoClause(j.fields);
        var location :- ObjectMember(clause, "location");
        var lat :- FloatMember(location, "lat", parse);
        var lon :- FloatMember(location, "lon", parse);
        var order :- StringMember(clause, "order");
        var unit :- StringMember(clause, "unit");
        var distanceType :- StringMember(clause, "distance_type");
        var ignoreUnmapped :- BoolMember(clause, "ignore_unmapped");
        Some(GeoDistanceSort(size, lat, lon, order, unit, distanceType, ignoreUnmapped))
  }

  /** A paging body carries exactly its `from` and `size`. */
  lemma {:induction false} MatchAllRoundTrip(from: Int64, size: Int64, fs: FloatSyntax)
    ensures DecodeQuery(EncodeQuery(MatchAll(from, size), fs.format).value, fs.parse) == Some(MatchAll(from, size))
  {
    var fields := [("from", IntJson(from)), ("query", JObj([("match_all", JObj([]))])), ("size", IntJson(size))];
    assert EncodeQuery(MatchAll(from, size), fs.format).value == JObj(fields);
    IntMemberAt(fields, 2, size);
    IntMemberAt(fields, 0, from);
    assert Lookup(fields, "query") == Some(JObj([("match_all", JObj([]))])) by {
      LookupDistinct(fields, 1);
    }
    DecodeMatchAllOfParts(fields, from, size, fs.parse);
  }

  /** Decoding a paging body reads only `size`, `query` and `from`. */
  lemma {:induction false} DecodeMatchAllOfParts(fields: seq<(string, Json)>, from: Int64, size: Int64,
                                                 parse: string -> Option<Float64>)
    requires IntMember(fields, "size") == Some(size)
    requires IntMember(fields, "from") == Some(from)
    requires Lookup(fields, "query") == Some(JObj([("match_all", JObj([]))]))
    ensures DecodeQuery(JObj(fields), parse) == Some(MatchAll(from, size))
  {
  }

  /** A nearest-first body carries its size, its point (lat and lon not swapped) and every sort option. */
  lemma {:induction false} GeoDistanceSortRoundTrip(q: Query, fs: FloatSyntax)
    requires q.GeoDistanceSort? && HasFiniteCoordinates(q) && RoundTrips(fs)
    ensures DecodeQuery(EncodeQuery(q, fs.format).value, fs.parse) == Some(q)
  {
    var location := [("lat", FloatJson(q.lat, fs.format).value), ("lon", FloatJson(q.lon, fs.format).value)];
    var clause := [("distance_type", JStr(q.distanceType)), ("ignore_unmapped", JBool(q.ignoreUnmapped)),
                   ("location", JObj(location)), ("order", JStr(q.order)), ("unit", JStr(q.unit))];
    var fields := [("size", IntJson(q.size)), ("sort", JArr([JObj([("_geo_distance", JObj(clause))])]))];
    assert EncodeQuery(q, fs.format).value == JObj(fields);
    assert IntMember(fields, "size") == Some(q.size) by {
      LookupDistinct(fields, 0);
      Strconv.AtoiItoa(q.size);
    }
    assert Lookup(fields, "query") == None by { LookupFindsLast(fields, "query"); }
    assert GeoClause(fields) == Some(clause) by {
      LookupDistinct(fields, 1);
      assert Lookup([("_geo_distance", JObj(clause))], "_geo_distance") == Some(JObj(clause));
    }
    LocationMembers(q, fs);
    GeoClauseMembers(q, location, clause);
    DecodeGeoSortOfParts(fields, clause, location, q, fs.parse);
  }

  /** The point of an encoded `_geo_distance` clause reads back with lat and lon in their places. */
  lemma {:induction false} LocationMembers(q: Query, fs: FloatSyntax)
    requires q.GeoDistanceSort? && HasFiniteCoordinates(q) && RoundTrips(fs)
    ensures var location := [("lat", FloatJson(q.lat, fs.format).value), ("lon", FloatJson(q.lon, fs.format).value)];
      && FloatMember(location, "lat", fs.parse) == Some(q.lat)
      && FloatMember(location, "lon", fs.parse) == Some(q.lon)
  {
    var location := [("lat", FloatJson(q.lat, fs.format).value), ("lon", FloatJson(q.lon, fs.format).value)];
    LookupDistinct(location, 0);
    LookupDistinct(location, 1);
  }

  /** The members of an encoded `_geo_distance` clause. */
  lemma {:induction false} GeoClauseMembers(q: Query, location: seq<(string, Json)>, clause: seq<(string, Json)>)
    requires q.GeoDistanceSort?
    requires clause == [("distance_type", JStr(q.distanceType)), ("ignore_unmapped", JBool(q.ignoreUnmapped)),
                        ("location", JObj(location)), ("order", JStr(q.order)), ("unit", JStr(q.unit))]
    ensures ObjectMember(clause, "location") == Some(location)
    ensures StringMember(clause, "order") == Some(q.order)
    ensures StringMember(clause, "unit") == Some(q.unit)
    ensures StringMember(clause, "distance_type") == Some(q.distanceType)
    ensures BoolMember(clause, "ignore_unmapped") == Some(q.ignoreUnmapped)
  {
    LookupDistinct(clause, 0);
    LookupDistinct(clause, 1);
    LookupDistinct(clause, 2);
    LookupDistinct(clause, 3);
    LookupDistinct(clause, 4);
  }

  lemma {:induction false} DecodeGeoSortOfParts(fields: seq<(string, Json)>, clause: seq<(string, Json)>,
                                                location: seq<(string, Json)>, q: Query, parse: string -> Option<Float64>)
    requires q.GeoDistanceSort?
    requires IntMember(fields, "size") == Some(q.size)
    requires Lookup(fields, "query") == None
    requires GeoClause(fields) == Some(clause)
    requires ObjectMember(clause, "location") == Some(location)
    requires FloatMember(location, "lat", parse) == Some(q.lat)
    requires FloatMember(location, "lon", parse) == Some(q.lon)
    requires StringMember(clause, "order") == Some(q.order)
    requires StringMember(clause, "unit") == Some(q.unit)
    requires StringMember(clause, "distance_type") == Some(q.distanceType)
    requires BoolMember(clause, "ignore_unmapped") == Some(q.ignoreUnmapped)
    ensures DecodeQuery(JObj(fields), parse) == Some(q)
  {
  }

  /** Every query the store can encode is read back as the same query. */
  lemma {:induction false} QueryRoundTrip(q: Query, fs: FloatSyntax)
    requires HasFiniteCoordinates(q) && RoundTrips(fs)
    ensures EncodeQuery(q, fs.format).Success?
    ensures DecodeQuery(EncodeQuery(q, fs.format).value, fs.parse) == Some(q)
  {
    if q.MatchAll? {
      MatchAllRoundTrip(q.from, q.size, fs);
    } else {
      GeoDistanceSortRoundTrip(q, fs);
    }
  }

  // ------------------------------------------------------------------ search

  /** A search call: the index, the body and the `track_total_hits` option if set. */
  datatype SearchRequest = SearchRequest(index: string, body: Json, trackTotalHits: Option<bool>)

  /** The client's answer: a transport error, or a response whose body may not be valid JSON (None). */
  datatype SearchReply = SearchFailed(message: string) | SearchResponse(status: int, body: Option<Json>)

  /** The three wrapped errors: "error encoding query", "error searching through es", "error parsing the response body". */
  datatype QueryError =
    | EncodingQuery(cause: EncodeError)
    | SearchingEs(message: string)
    | ParsingBody(decodeError: Option<DecodeError>)

  /** Sends the request and decodes the reply. The response status is never consulted. */
  function RunSearch(req: SearchRequest, parse: string -> Option<Float64>,
                     search: SearchRequest -> SearchReply): (r: Result<EsSearch, QueryError>)
    ensures search(req).SearchFailed? ==> r == Failure(SearchingEs(search(req).message))
    ensures search(req).SearchResponse? && search(req).body.None? ==> r == Failure(ParsingBody(None))
    ensures search(req).SearchResponse? && search(req).body.Some? ==>
      && (r.Success? <==> DecodeSearchResponse(search(req).body.value, parse).Success?)
      && (r.Success? ==> r.value == DecodeSearchResponse(search(req).body.value, parse).value)
      && (r.Failure? ==> r.error == ParsingBody(Some(DecodeSearchResponse(search(req).body.value, parse).error)))
  {
    match search(req)
    case SearchFailed(message) => Failure(SearchingEs(message))
    case SearchResponse(_, None) => Failure(ParsingBody(None))
    case SearchResponse(_, Some(body)) =>
      match DecodeSearchResponse(body, parse)
      case Failure(e) => Failure(ParsingBody(Some(e)))
      case Success(es) => Success(es)
  }

  /** Two replies with the same body give the same result, whatever their statuses. */
  lemma {:induction false} RunSearchIgnoresStatus(req: SearchRequest, parse: string -> Option<Float64>,
                                                  search: SearchRequest -> SearchReply, other: SearchRequest -> SearchReply)
    requires search(req).SearchResponse? && other(req).SearchResponse?
    requires search(req).body == other(req).body
    ensures RunSearch(req, parse, search) == RunSearch(req, parse, other)
  {
  }

  datatype Page = Page(places: seq<Place>, total: Int64)

  /** The request `GetPlaces` sends: the paging body, exact total-hit counting. */
  function PlacesRequest(limit: Int64, offset: Int64, format: Float64 -> string): SearchRequest {
    SearchRequest(PlacesIndex, EncodeQuery(PlacesQuery(limit, offset), format).value, Some(true))
  }

  /** The request `GetClosetPlaces` sends; it leaves total-hit counting at the engine default. */
  function NearestRequest(limit: Int64, lat: Float64, lon: Float64, format: Float64 -> string): SearchRequest
    requires IsFinite(lat) && IsFinite(lon)
  {
    SearchRequest(PlacesIndex, EncodeQuery(NearestQuery(limit, lat, lon), format).value, None)
  }

  /**
   * `GetPlaces(limit, offset)`: one page of places in the engine's order, and
   * the total number of matching documents.
   */
  function GetPlaces(limit: Int64, offset: Int64, fs: FloatSyntax, search: SearchRequest -> SearchReply): (r: Result<Page, QueryError>)
    ensures r.Failure? ==> !r.error.EncodingQuery?
    ensures r.Success? <==> RunSearch(PlacesRequest(limit, offset, fs.format), fs.parse, search).Success?
    ensures r.Failure? ==> r.error == RunSearch(PlacesRequest(limit, offset, fs.format), fs.parse, search).error
    ensures r.Success? ==>
      var es := RunSearch(PlacesRequest(limit, offset, fs.format), fs.parse, search).value;
      && |r.value.places| == |es.hits.hits|
      && (forall i :: 0 <= i < |es.hits.hits| ==> r.value.places[i] == es.hits.hits[i].source)
      && r.value.total == es.hits.total.value
  {
    match EncodeQuery(PlacesQuery(limit, offset), fs.format)
    case Failure(e) => Failure(EncodingQuery(e))
    case Success(body) =>
      match RunSearch(SearchRequest(PlacesIndex, body, Some(true)), fs.parse, search)
      case Failure(e) => Failure(e)
      case Success(es) => Success(Page(SourcesOf(es.hits.hits), es.hits.total.value))
  }

  /**
   * `GetClosetPlaces(limit, lat, lon)`: the places in the engine's order; the
   * total is neither requested nor returned.
   */
  function GetClosetPlaces(limit: Int64, lat: Float64, lon: Float64, fs: FloatSyntax,
                           search: SearchRequest -> SearchReply): (r: Result<seq<Place>, QueryError>)
    ensures r.Failure? && r.error.EncodingQuery? <==> !(IsFinite(lat) && IsFinite(lon))
    ensures r.Success? <==> IsFinite(lat) && IsFinite(lon) && RunSearch(NearestRequest(limit, lat, lon, fs.format), fs.parse, search).Success?
    ensures r.Failure? && IsFinite(lat) && IsFinite(lon) ==>
      r.error == RunSearch(NearestRequest(limit, lat, lon, fs.format), fs.parse, search).error
    ensures r.Success? ==>
      var es := RunSearch(NearestRequest(limit, lat, lon, fs.format), fs.parse, search).value;
      && |r.value| == |es.hits.hits|
      && (forall i :: 0 <= i < |es.hits.hits| ==> r.value[i] == es.hits.hits[i].source)
  {
    match EncodeQuery(NearestQuery(limit, lat, lon), fs.format)
    case Failure(e) => Failure(EncodingQuery(e))
    case Success(body) =>
      match RunSearch(SearchRequest(PlacesIndex, body, None), fs.parse, search)
      case Failure(e) => Failure(e)
      case Success(es) => Success(SourcesOf(es.hits.hits))
  }

  // ------------------------------------------------------------------ what is sent, what comes back

  /** `GetPlaces` asks the "places" index for `size = limit` documents from `from = offset`, counting every hit. */
  lemma {:induction false} PlacesRequestShape(limit: Int64, offset: Int64, fs: FloatSyntax)
    requires RoundTrips(fs)
    ensures PlacesRequest(limit, offset, fs.format).index == PlacesIndex
    ensures PlacesRequest(limit, offset, fs.format).trackTotalHits == Some(true)
    ensures DecodeQuery(PlacesRequest(limit, offset, fs.format).body, fs.parse) == Some(MatchAll(offset, limit))
  {
    QueryRoundTrip(PlacesQuery(limit, offset), fs);
  }

  /**
   * `GetClosetPlaces` asks the "places" index for `size = limit` documents in
   * ascending arc distance (km) from (lat, lon), ignoring unmapped documents,
   * and does not ask for a total.
   */
  lemma {:induction false} NearestRequestShape(limit: Int64, lat: Float64, lon: Float64, fs: FloatSyntax)
    requires RoundTrips(fs) && IsFinite(lat) && IsFinite(lon)
    ensures NearestRequest(limit, lat, lon, fs.format).index == PlacesIndex
    ensures NearestRequest(limit, lat, lon, fs.format).trackTotalHits == None
    ensures DecodeQuery(NearestRequest(limit, lat, lon, fs.format).body, fs.parse)
         == Some(GeoDistanceSort(limit, lat, lon, "asc", "km", "arc", true))
  {
    QueryRoundTrip(NearestQuery(limit, lat, lon), fs);
  }

  /**
   * Whatever result set the engine writes, at whatever status, `GetPlaces`
   * returns its sources in hit order and its total.
   */
  lemma {:induction false} GetPlacesReturnsEngineHits(limit: Int64, offset: Int64, fs: FloatSyntax,
                                                      search: SearchRequest -> SearchReply, status: int, es: EsSearch)
    requires RoundTrips(fs) && AllFinite(SourcesOf(es.hits.hits))
    requires search(PlacesRequest(limit, offset, fs.format)) == SearchResponse(status, Some(EncodeSearchResponse(es, fs.format).value))
    ensures GetPlaces(limit, offset, fs, search) == Success(Page(SourcesOf(es.hits.hits), es.hits.total.value))
  {
    SearchResponseRoundTrip(es, fs);
  }

  /** Whatever result set the engine writes, `GetClosetPlaces` returns its sources in hit order. */
  lemma {:induction false} GetClosetPlacesReturnsEngineHits(limit: Int64, lat: Float64, lon: Float64, fs: FloatSyntax,
                                                            search: SearchRequest -> SearchReply, status: int, es: EsSearch)
    requires RoundTrips(fs) && AllFinite(SourcesOf(es.hits.hits)) && IsFinite(lat) && IsFinite(lon)
    requires search(NearestRequest(limit, lat, lon, fs.format)) == SearchResponse(status, Some(EncodeSearchResponse(es, fs.format).value))
    ensures GetClosetPlaces(limit, lat, lon, fs, search) == Success(SourcesOf(es.hits.hits))
  {
    SearchResponseRoundTrip(es, fs);
  }

  /**
   * The status is never checked: an error reply whose body has no `hits`
   * member is an empty page with total 0, not an error.
   */
  lemma {:induction false} GetPlacesIgnoresStatus(limit: Int64, offset: Int64, fs: FloatSyntax,
                                                  search: SearchRequest -> SearchReply, status: int, fields: seq<(string, Json)>)
    requires "hits" !in Keys(fields)
    requires search(PlacesRequest(limit, offset, fs.format)) == SearchResponse(status, Some(JObj(fields)))
    ensures GetPlaces(limit, offset, fs, search) == Success(Page([], 0))
  {
    MissingHitsDecodesEmpty(fields, fs.parse);
  }

  /** A transport error and an unreadable body are the two wrapped errors of `GetPlaces`, in that order. */
  lemma {:induction false} GetPlacesErrors(limit: Int64, offset: Int64, fs: FloatSyntax, search: SearchRequest -> SearchReply)
    ensures search(PlacesRequest(limit, offset, fs.format)).SearchFailed? ==>
      GetPlaces(limit, offset, fs, search) == Failure(SearchingEs(search(PlacesRequest(limit, offset, fs.format)).message))
    ensures search(PlacesRequest(limit, offset, fs.format)).SearchResponse? && search(PlacesRequest(limit, offset, fs.format)).body.None? ==>
      GetPlaces(limit, offset, fs, search) == Failure(ParsingBody(None))
  {
  }

  /** The same two errors for `GetClosetPlaces`, once its query could be encoded. */
  lemma {:induction false} GetClosetPlacesErrors(limit: Int64, lat: Float64, lon: Float64, fs: FloatSyntax,
                                                 search: SearchRequest -> SearchReply)
    requires IsFinite(lat) && IsFinite(lon)
    ensures search(NearestRequest(limit, lat, lon, fs.format)).SearchFailed? ==>
      GetClosetPlaces(limit, lat, lon, fs, search) == Failure(SearchingEs(search(NearestRequest(limit, lat, lon, fs.format)).message))
    ensures search(NearestRequest(limit, lat, lon, fs.format)).SearchResponse? && search(NearestRequest(limit, lat, lon, fs.format)).body.None? ==>
      GetClosetPlaces(limit, lat, lon, fs, search) == Failure(ParsingBody(None))
  {
  }
}

=== FILE: strconv.dfy ===
/**
 * Go's decimal integer syntax: `strconv.Atoi` (what the page handlers accept and
 * what `encoding/json` uses for an `int` field) and `strconv.Itoa`.
 */
module Strconv {
  import opened Wrappers
  import opened Numbers

  predicate IsDigit(c: char) {
    '0' <= c <= '9'
  }

  predicate AllDigits(s: string) {
    forall i :: 0 <= i < |s| ==> IsDigit(s[i])
  }

  function DigitValue(c: char): nat
    requires IsDigit(c)
  {
    (c as int) - ('0' as int)
  }

  function DigitChar(d: nat): (c: char)
    requires d < 10
    ensures IsDigit(c) && DigitValue(c) == d
  {
    (('0' as int) + d) as char
  }

  /** The number a non-empty run of decimal digits denotes, most significant first. */
  function DecimalValue(s: string): nat
    requires AllDigits(s)
  {
    if |s| == 0 then 0 else DecimalValue(s[..|s| - 1]) * 10 + DigitValue(s[|s| - 1])
  }

  /**
   * `strconv.Atoi` on a 64-bit platform: an optional sign, then one or more
   * decimal digits and nothing else; a value outside the `int` range is an error.
   */
  function Atoi(s: string): (r: Option<Int64>)
    ensures r.Some? ==> |s| > 0 && forall i :: 0 <= i < |s| ==> IsDigit(s[i]) || (i == 0 && (s[0] == '-' || s[0] == '+'))
  {
    if |s| == 0 then None
    else
      var negative := s[0] == '-';
      var digits := if s[0] == '-' || s[0] == '+' then s[1..] else s;
      if |digits| == 0 || !AllDigits(digits) then None
      else
        var magnitude: int := DecimalValue(digits);
        var v := if negative then -magnitude else magnitude;
        if MinInt64 <= v <= MaxInt64 then Some(v) else None
  }

  /** The shortest decimal spelling of a natural number. */
  function NatToDecimal(n: nat): (s: string)
    ensures |s| > 0 && AllDigits(s) && DecimalValue(s) == n
    ensures s[0] != '-' && s[0] != '+'
    decreases n
  {
    if n < 10 then [DigitChar(n)]
    else
      var prefix := NatToDecimal(n / 10);
      var s := prefix + [DigitChar(n % 10)];
      assert s[..|s| - 1] == prefix;
      s
  }

  /** `strconv.Itoa`: a minus sign for negative values, then the digits. */
  function Itoa(n: int): string {
    if n < 0 then "-" + NatToDecimal(-n) else NatToDecimal(n)
  }

  /** Every Go `int` written by Itoa is read back unchanged by Atoi. */
  lemma {:induction false} AtoiItoa(n: Int64)
    ensures Atoi(Itoa(n)) == Some(n)
  {
    if n < 0 {
      var d := NatToDecimal(-(n as int));
      assert Itoa(n)[1..] == d;
    }
  }

  /** Atoi rejects the empty string, a lone sign, and any character that is not a digit or a leading sign. */
  lemma {:induction false} AtoiRejects(s: string)
    ensures |s| == 0 ==> Atoi(s).None?
    ensures |s| > 0 && (exists i :: 0 <= i < |s| && !IsDigit(s[i]) && !(i == 0 && (s[0] == '-' || s[0] == '+'))) ==> Atoi(s).None?
    ensures (s == "-" || s == "+") ==> Atoi(s).None?
  {
    if |s| > 0 && exists i :: 0 <= i < |s| && !IsDigit(s[i]) && !(i == 0 && (s[0] == '-' || s[0] == '+')) {
      var i :| 0 <= i < |s| && !IsDigit(s[i]) && !(i == 0 && (s[0] == '-' || s[0] == '+'));
      if s[0] == '-' || s[0] == '+' {
        assert s[1..][i - 1] == s[i];
      }
    }
  }

  /**
   * Every run of digits is accepted, bare or after a sign, when its signed value
   * is a Go `int`, and rejected when it is not. With `AtoiRejects`: Atoi accepts
   * exactly the spellings sign? digit+ whose value is in range.
   */
  lemma {:induction false} AtoiAcceptsDecimal(d: string)
    requires |d| > 0 && AllDigits(d)
    ensures DecimalValue(d) <= MaxInt64 ==> Atoi(d) == Some(DecimalValue(d)) && Atoi("+" + d) == Some(DecimalValue(d))
    ensures DecimalValue(d) <= MaxInt64 + 1 ==> Atoi("-" + d) == Some(-(DecimalValue(d) as int))
    ensures DecimalValue(d) > MaxInt64 ==> Atoi(d).None? && Atoi("+" + d).None?
    ensures DecimalValue(d) > MaxInt64 + 1 ==> Atoi("-" + d).None?
  {
    assert ("+" + d)[1..] == d;
    assert ("-" + d)[1..] == d;
  }
}

=== FILE: wrappers.dfy ===
/** Failure-compatible result types used for every error return of the model. */
module Wrappers {

  /** A value that may be absent: Go's nil pointer, a parse that failed, a missing key. */
  datatype Option<+T> = None | Some(value: T) {
    predicate IsFailure() {
      None?
    }

    function PropagateFailure<U>(): Option<U>
      requires None?
    {
      None
    }

    function Extract(): T
      requires Some?
    {
      value
    }
  }

  /** Go's `(value, error)` pair: exactly one of the two is meaningful. */
  datatype Result<+R, +E> = Success(value: R) | Failure(error: E) {
    predicate IsFailure() {
      Failure?
    }

    function PropagateFailure<U>(): Result<U, E>
      requires Failure?
    {
      Failure(error)
    }

    function Extract(): R
      requires Success?
    {
      value
    }
  }
}
